=== FILE: README.md ===
# HabitFlow derivation engine in Dafny

This project models the pure logic of the HabitFlow habit tracker. It covers what
the React components compute from the persisted state and omits the rendering.
The persisted state has three parts: the habit list, the sparse completion log
(day → habit id → done, where absence means "not done") and the sparse mood log
(day → label).

The model has eight modules:

- `Calendar`: the proleptic Gregorian calendar on integer day numbers, where day 0
  is 0001-01-01. It stands in for the date-fns helpers the components call:
  - month and year day lists;
  - weekday, with Sunday = 0;
  - the `getWeek` week number under date-fns' defaults;
  - conversion between dates and day numbers.
- `DateKeys`: the `yyyy-MM-dd` storage key, which is the full-date form of
  section 5.6 of RFC 3339. For four-digit years, comparing keys as strings
  compares the dates (section 5.1 of RFC 3339). This is why the model keys the
  logs by day number instead of by string.
- `LogStore`: the four mutations (toggle, set mood, add habit, delete habit), the
  storage fallback on load, and the per-listed-habit completion count.
- `Streaks`:
  - the best streak, the longest run of consecutive completed days, computed by
    sorting and one scan;
  - the current streak, the backward walk from today or yesterday. It terminates
    on the finite set of completed days, with no horizon.
- `Ratios`: `Math.round(part / whole * 100)` taken exactly, as round-half-up
  integer division, with 0 for an empty whole.
- `Dashboard`: the trend series, the monthly totals, the mood histogram and the
  forest score. The dashboard counts every true entry of a day, including
  entries left behind by deleted habits.
- `Heatmap`: one cell per day of a year, with the count, the level 0..4, the
  colour and the leading pad cells.
- `HabitGrid`:
  - the visible days, including focus mode;
  - the week headers;
  - the per-day summary rows;
  - the per-habit progress and its colour band.

"Today" is a parameter everywhere; so are the random colour and the timestamp id
of a new habit.

## Model

| member | source | states |
|---|---|---|
| Calendar.ToDayOrder | src/App.jsx:95-97 | Valid dates are in chronological order exactly when their day numbers are, and they are equal exactly when their day numbers are, so sorting by day number is sorting by date |
| Calendar.FromDayToDay | src/components/HabitGrid.jsx:40 | Converting a valid date to its day number and back gives the same date, so a day number names exactly one calendar day |
| Calendar.FromDay | src/components/HabitGrid.jsx:40 | Every day number has a valid calendar date whose day number is that number |
| Calendar.MonthOf | src/components/Dashboard.jsx:10-12 | The days of the reference month number 28 to 31, ascending with no gaps |
| Calendar.MonthOfContents | src/components/HabitGrid.jsx:10-14 | The month list contains the reference day, and entry i is day i+1 of that month. A day is in the list exactly when it has the reference day's year and month |
| Calendar.YearDays | src/components/HeatmapView.jsx:8-12 | The year list has 366 entries in a Gregorian leap year and 365 otherwise. It runs up from January 1 with no gaps, and holds exactly the days whose date falls in that year |
| Calendar.WeekdayCycle | src/components/HeatmapView.jsx:70 | The weekday moves on by one each day and repeats every seven days |
| Calendar.WeekdayAnchors | src/components/HeatmapView.jsx:70 | The weekday (getDay, Sunday = 0) of 1970-01-01 is Thursday and that of 2024-01-01 is Monday |
| Calendar.WeekYearStart | src/components/HabitGrid.jsx:30 | Week 1 of a year begins on the Sunday on or before January 1, at most six days earlier |
| Calendar.WeekNumberOfDate | src/components/HabitGrid.jsx:30 | getWeek of a date counts whole weeks from week 1 of the next year once that week has begun (late December), and otherwise from week 1 of the date's own year |
| DateKeys.Key | src/components/Dashboard.jsx:15 | For years below 10000 the key has ten characters, with dashes at positions 4 and 7 |
| DateKeys.KeyOrder | src/components/Dashboard.jsx:15 | For years 1..9999 one key is string-less than another exactly when its date is earlier, and two keys are equal exactly when the dates are |
| DateKeys.FiveDigitYearBreaksOrder | src/components/HeatmapView.jsx:18 | The key of 10000-01-01 sorts as a string before the key of 9999-12-31, although it is the later date |
| LogStore.Toggle | src/App.jsx:43-54 | The (day, habit) lookup is negated, so an absent entry becomes true. The day's map is created when missing, and every other day and every other entry of that day is unchanged |
| LogStore.ToggleFrame | src/App.jsx:45-53 | After a toggle, the lookup of every (day, habit) pair other than the toggled one is the same as before |
| LogStore.ToggleTwice | src/App.jsx:45-53 | Toggling twice restores every lookup. When the entry already existed it restores the log itself |
| LogStore.SetMood | src/App.jsx:57-62 | The day's mood becomes the given label, and every other day's mood, present or absent, is unchanged |
| LogStore.SetMoodLastWins | src/App.jsx:57-62 | Setting two moods on the same day gives the same log as setting only the second |
| LogStore.TrimEmptyIffBlank | src/App.jsx:66 | A name trims to the empty string exactly when every character is JavaScript white space |
| LogStore.PickColor | src/App.jsx:68-69 | A random number r in [0, 1) picks palette colour i exactly when i/5 <= r < (i+1)/5, so each colour owns one fifth of the range |
| LogStore.AddHabit | src/App.jsx:64-77 | A blank name leaves the list unchanged. Otherwise the old list is kept as a prefix and one habit is appended, with the fresh id, the name exactly as typed and the colour passed in, which in the app is the one `PickColor` draws |
| LogStore.AddHabitKeepsIdsUnique | src/App.jsx:71-77 | With a fresh id, the ids stay unique and the id set grows by exactly that id, or not at all for a blank name |
| LogStore.DeleteHabit | src/App.jsx:82-86 | The result holds exactly the habits whose id differs from the deleted one, and the id set loses exactly that id |
| LogStore.DeleteHabitDistributes | src/App.jsx:84 | Deleting from a concatenation deletes from each part, so the survivors keep their order |
| LogStore.DeleteHabitKeepsIdsUnique | src/App.jsx:84 | Deleting keeps the ids unique, and deleting the same id again changes nothing |
| LogStore.Load | src/App.jsx:9-18 | A parsed stored value is used as it is, and a missing or unparsable one gives the default |
| LogStore.SafeHabits | src/App.jsx:34-35 | A stored list is used as it is, and any other stored value gives no habits |
| LogStore.LoadedHabits | src/App.jsx:10-35 | On a first run or after corruption the five seed habits load, with unique ids. A stored non-list loads as the empty list |
| LogStore.CountDone | src/components/HeatmapView.jsx:20 | The count of listed habits done on a day is at most the number of habits. It equals that number exactly when all are done, and is 0 exactly when none is |
| LogStore.CountDoneIgnoresOrphans | src/components/HabitGrid.jsx:41-43 | Toggling an id that is not listed never changes the per-habit count of any day |
| Streaks.CompletedDays | src/App.jsx:95-96 | The completed days of a habit are exactly the days on which its lookup is true |
| Streaks.RunEndingAt | src/App.jsx:161-169 | The backward walk from day e counts n days that are all completed, and stops because day e-n is not completed |
| Streaks.CurrentStreak | src/App.jsx:124-170 | The current streak is 0 exactly when neither today nor yesterday is done. Otherwise it is the length of the maximal run of done days ending at today if done, else at yesterday |
| Streaks.WalkCurrentStreak | src/App.jsx:154-169 | App.jsx's loop, which starts at today or yesterday and steps back while the day is done, returns the current streak |
| Streaks.SortedCompletedDates | src/App.jsx:95-97 | The filtered and sorted keys list exactly the completed days, strictly ascending |
| Streaks.ScanRuns | src/App.jsx:99-120 | The scan over the ascending dates, which restarts at 1 on any gap other than one day, ends with the length of the longest run. The result is at most the number of completed days, and 0 exactly when there are none |
| Streaks.BestStreak | src/App.jsx:95-120 | The best streak is the longest run of consecutive completed days, at most their number, and 0 exactly when the habit was never done |
| Streaks.LongestRunUnique | src/App.jsx:103-120 | The longest-run length of a set of days is unique, so the best streak is well defined |
| Streaks.CurrentAtMostBest | src/App.jsx:99-172 | The current streak never exceeds the best streak |
| Streaks.NoCompletionsNoStreak | src/App.jsx:99-130 | A habit that was never done has current and best streak 0 |
| Streaks.TwoRunsScenario | src/App.jsx:105-169 | Completions on days 1-5 and 8-9, with today being day 9, give best streak 5 and current streak 2, because the two runs are never merged |
| Streaks.StreakData | src/App.jsx:91-175 | There is one entry per listed habit id, holding that habit's current streak and its longest run, with current at most best |
| Streaks.DisplayedStreak | src/components/HabitGrid.jsx:197-199 | A habit with no streak entry shows 0 and 0, and one with an entry shows that entry |
| Ratios.Percent | src/components/Dashboard.jsx:18 | The percentage is the integer nearest to 100·part/whole, with a half rounded up, and 0 for an empty whole. It is at most 100 when part ≤ whole, exactly 100 when they are equal, and 0 for part 0 |
| Ratios.NearestUnique | src/components/Dashboard.jsx:40 | At most one integer is nearest to 100·part/whole, so the rounding is well defined |
| Ratios.PercentMonotone | src/components/HabitGrid.jsx:144 | For a fixed whole, more done never shows a smaller percentage |
| Dashboard.TrueIds | src/components/Dashboard.jsx:16-17 | The ids counted for a day are exactly those whose lookup is true, listed or not |
| Dashboard.DayTotal | src/components/Dashboard.jsx:16-17 | A day's dashboard count is 0 exactly when no id at all is marked true that day |
| Dashboard.CountDoneIsSetSize | src/components/HabitGrid.jsx:41-43 | With unique ids, the per-habit count of a day is the number of distinct listed ids that are done that day |
| Dashboard.DayTotalAtLeastListed | src/components/Dashboard.jsx:17 | With unique habit ids, the dashboard's day count is never below the grid's and heatmap's count of listed habits done |
| Dashboard.DayTotalMatchesListed | src/components/Dashboard.jsx:17 | With unique habit ids and when no true entry belongs to an unlisted id, the dashboard's day count equals the listed-habit count and is at most the number of habits |
| Dashboard.Trend | src/components/Dashboard.jsx:9-26 | There is one point per day of the reference month, in order, with that day's count and the rounded share of the habit count |
| Dashboard.DayTotalWithinHabits | src/components/Dashboard.jsx:16-17 | When no true entry belongs to an unlisted id, the dashboard's day count is at most the number of habits, even when listed ids repeat |
| Dashboard.TrendWithinHundred | src/components/Dashboard.jsx:18 | When no true entry belongs to an unlisted id, every trend percentage is at most 100, whether or not listed ids repeat |
| Dashboard.OrphanInflatesTrend | src/components/Dashboard.jsx:17-18 | One listed habit done, plus a true entry left by a deleted habit, counts 2 and shows 200 percent |
| Dashboard.StatsOver | src/components/Dashboard.jsx:31-41 | Over any list of days: possible is the number of days times the number of habits, completed (accumulated by the loop) is the sum of the day counts, and the percentage is their rounded ratio, 0 when nothing is possible |
| Dashboard.CompletionStats | src/components/Dashboard.jsx:29-42 | Possible is the number of days in the month times the number of habits, and completed is the sum of the month's day counts. The percentage is their rounded ratio, 0 when nothing is possible |
| Dashboard.StatsMatchTrend | src/components/Dashboard.jsx:30-38 | The month's completed total equals the sum of the trend chart's counts |
| Dashboard.StatsWithinHundred | src/components/Dashboard.jsx:40 | When no true entry belongs to an unlisted id, completed is at most possible and the monthly percentage is at most 100, whether or not listed ids repeat |
| Dashboard.MoodHistogram | src/components/Dashboard.jsx:51-57 | A label is a key exactly when it is non-empty and some listed day carries it. Each non-empty label's shown count is the number of days carrying it |
| Dashboard.MoodStats | src/components/Dashboard.jsx:45-60 | The mood histogram of the reference month, in which empty labels are never counted |
| Dashboard.MoodCountsWithinDays | src/components/Dashboard.jsx:51-57 | Summed over any distinct labels, the mood counts are at most the number of days |
| Dashboard.HeadlineCount | src/components/Dashboard.jsx:256 | A label missing from the histogram reads as 0, and a present one reads as its count |
| Dashboard.GrowthScore | src/components/Dashboard.jsx:64-67 | The score is 0 exactly when there are fewer than 5 completions and fewer than 3 happy days, and 15·score ≤ 3·completed + 5·happy |
| Dashboard.GrowthSteps | src/components/Dashboard.jsx:66 | Five more completions, or three more happy days, add exactly one tree, and the score never falls as either input grows |
| Dashboard.VisibleTrees | src/components/Dashboard.jsx:225 | The trees drawn are min(score, 50): the score when it is at most 50, and 50 from there on |
| Heatmap.Level | src/components/HeatmapView.jsx:24-31 | The level lies in 0..4 and is 0 exactly when there are no habits or nothing is done. Levels 1..3 have the share in their quarter with an inclusive upper bound, and level 4 has more than 75% |
| Heatmap.LevelUnique | src/components/HeatmapView.jsx:26-30 | A level that meets the band conditions for a positive count is the computed level, so the bands do not overlap |
| Heatmap.LevelMonotone | src/components/HeatmapView.jsx:24-31 | For a fixed number of habits, more done never gives a lower level |
| Heatmap.LevelScenario | src/components/HeatmapView.jsx:28-30 | With two habits, one done is level 2, both done is level 4, and none done, or no habits, is level 0 |
| Heatmap.HeatmapYear | src/components/HeatmapView.jsx:9-10 | The year shown is the selected year, except that a selected year from 0 to 99 shows 1900 + year, as `new Date(year, 0, 1)` reads it |
| Heatmap.TwoDigitYearShowsNineteenHundreds | src/components/HeatmapView.jsx:9-10 | Selecting year 50 shows 1950, whose January 1 is a Sunday, so no pad cells are drawn |
| Heatmap.IntensityMap | src/components/HeatmapView.jsx:8-35 | There is a cell for exactly the days of the year shown. Each cell's count is the number of listed habits done, at most the habit count, and its level is that count's level |
| Heatmap.IntensityIgnoresOrphans | src/components/HeatmapView.jsx:20 | Toggling an id that is not listed leaves the whole heatmap unchanged |
| Heatmap.GetColor | src/components/HeatmapView.jsx:42-51 | Levels 0..4 get the shade of their own rank, and any other value gets the level-0 shade |
| Heatmap.ShadeRoundTrip | src/components/HeatmapView.jsx:42-51 | Every shade is the colour of its own level, and different levels in 0..4 get different shades |
| Heatmap.LeadPad | src/components/HeatmapView.jsx:70 | There are at most six pad cells, and they reach back from January 1 of the year shown to the Sunday starting its week |
| Heatmap.PadAlignsWeekdays | src/components/HeatmapView.jsx:65-72 | After the pad cells, the cell of every day of the year shown falls in the row of its weekday |
| HabitGrid.VisibleDays | src/components/HabitGrid.jsx:17-25 | Without focus, the visible days are the whole month. With focus there is exactly one: today if it is in the month, otherwise the month's first day |
| HabitGrid.GroupByWeek | src/components/HabitGrid.jsx:27-35 | The week map as written has groups in ascending week order, one per week occurring among the days. Each group holds exactly that week's days in their order, and the sizes add up to the number of days |
| HabitGrid.AddToWeekContents | src/components/HabitGrid.jsx:31-32 | Pushing a day appends it to its own week's list and to no other |
| HabitGrid.DayInExactlyOneGroup | src/components/HabitGrid.jsx:27-35 | A day is under a header exactly when the header is the day's week. Every visible day's week has a header, and no header is empty |
| HabitGrid.FirstHeaderIsEarliestWeek | src/components/HabitGrid.jsx:34 | The first header's week is the smallest week number among the visible days |
| HabitGrid.HeadersMisaligned | src/components/HabitGrid.jsx:90-100 | As written, when a later column has a smaller week number than the first column, the first header is not the first column's week. The headers' days, read left to right, do not start with the first column's day |
| HabitGrid.DecemberHeadersMisaligned | src/components/HabitGrid.jsx:27-35 | In December 2024 the first column, December 1, is in week 49 and December 29 is in week 1. So the first header drawn is not week 49, and the header spans do not start over December 1 |
| HabitGrid.GroupRuns | src/components/HabitGrid.jsx:90-100 | The corrected headers are the maximal runs of consecutive columns sharing a week. Read left to right they give the columns back, and none is empty. Each holds only its own week's days, neighbouring runs differ, and the first run has the first column's week |
| HabitGrid.WeekHeaders | src/components/HabitGrid.jsx:90-100 | The corrected header row spans exactly the visible columns in order. There is one non-empty header per maximal run of consecutive columns of the same week: each header covers only days of its own week, neighbouring headers name different weeks, and the first header is the first column's week |
| HabitGrid.DailyTotals | src/components/HabitGrid.jsx:38-51 | There is one row per visible day. Completed counts the listed habits done, and completed plus not-completed is the habit count with both non-negative. The percentage is completed over the habit count, rounded to the nearest integer with halves up, and lies in 0..100. The percentage is 0 with no habits and 100 when every habit is done |
| HabitGrid.DoneDays | src/components/HabitGrid.jsx:143 | The days done are at most the visible days, and equal them exactly when the habit is done on every visible day |
| HabitGrid.HabitProgress | src/components/HabitGrid.jsx:142-144 | Required is the number of visible days, and done is at most required. Progress is the nearest percentage, at most 100, 0 when nothing is required and 100 when every day is done |
| HabitGrid.GridTotalsAgree | src/components/HabitGrid.jsx:140-144 | Summing the per-habit done days over the habits gives the same total as summing the per-day completed counts over the days |
| HabitGrid.ProgressBand | src/components/HabitGrid.jsx:214 | The band is low exactly up to 30, mid exactly above 30 up to 70, and high exactly above 70 |
| HabitGrid.BandMonotone | src/components/HabitGrid.jsx:214 | More progress never shows a lower band |

## Left out

- Rendering: JSX, Tailwind classes, icons, the recharts charts and their click-to-scroll, popups, and the focus and picker UI state. None of it computes anything the engine uses.
- The `tailwind.config.js` file: styling configuration only.
- Browser storage: reading and writing `localStorage`, JSON text, and the Blob download of the export. Loading is modelled only as "absent or unparsable gives the default; a non-list gives no habits" (`LogStore.Load`, `LogStore.SafeHabits`).
- The wall clock. `new Date()` and `Date.now()` become parameters: `today` for the streaks and focus mode, and `freshId` for a new habit's id. `Math.random()` becomes a fraction `num / den` in `[0, 1)`.
- Time zones. The source builds the streak keys in UTC (`toISOString`) but every other key in local time (`format`). The model uses one day numbering throughout, and does not model a day shifted by the time zone or by daylight-saving changes.
- The `confirm` dialog before a delete. The model is the confirmed branch; a cancelled delete changes nothing.
- `LogStore.DeleteHabit`: it takes no logs or moods, since the source does not touch them. The deleted habit's entries stay behind as orphans, whose effect on the dashboard is stated by `Dashboard.OrphanInflatesTrend`.
- The unused first streak walk (`src/App.jsx:134-150`), whose loop exits at once and whose result is never read.
- The month and year pickers, which depend on JavaScript's `setMonth` overflow.
- Floating point. `Math.round` of a quotient is modelled as exact round-half-up, `(200·part + whole) / (2·whole)`, and the heatmap's `percentage <= 25` tests as exact comparisons `4·count <= total`. A float that rounds differently at an exact boundary is not modelled.
- `DateKeys.KeyOrder`: proved only for years 1..9999. From year 10000 on, the padded key no longer sorts chronologically (`DateKeys.FiveDigitYearBreaksOrder`).
- Calendar dates before year 1 are not modelled, because day numbers are natural numbers from 0001-01-01.
- Heatmap.IntensityMap, Heatmap.LeadPad, Heatmap.PadAlignsWeekdays: a negative selected year (which `new Date` would keep as a year before 1) is not modelled, since the calendar starts at year 1; years 0 to 99 are read as 1900 to 1999, as the source does.
- `Calendar.WeekNumberOfDate`: the week number is date-fns `getWeek` under its defaults (weeks start on Sunday; week 1 is the week containing January 1). It is not an ISO 8601 week; the model follows date-fns getWeek.
- `Dashboard.MoodHistogram`: the counts are a map from label to number. The source keeps them in a plain object, where a label naming an `Object.prototype` member behaves differently. `"__proto__"` is never stored as a key. `"toString"`, `"constructor"` and the like start from the inherited function and end up holding a string, not a count. Such labels can only come from a hand-edited store, and the model counts them like any other label.
- `Dashboard.MoodStats`: labels are strings, and "truthy" is read as "non-empty". Non-string values that a hand-edited store could hold are not modelled.
- `Streaks.StreakData`: the best streak is specified as the longest run (`LongestRun`) and not as a closed formula. The current streak is stated against `CurrentStreak`, whose own contract gives its meaning.

## Findings

| source | as written | input that shows it | evidently intended | confidence | as-written member | corrected member |
|---|---|---|---|---|---|---|
| src/components/HabitGrid.jsx:27-35 | The week headers are the week-number groups sorted by week number, and each header spans as many columns as its group has days. They are drawn left to right above the day columns, which are in date order. | The month of December 2024. December 29-31 share week 1 with January 1, 2025, so the "Week 1" header, 3 columns wide, is drawn first, above December 1-3. The headers from week 49 on are all shifted right. | Each header sits above the columns of its own week: one header per run of consecutive days of the same week, in column order. | not executed | HabitGrid.DecemberHeadersMisaligned | HabitGrid.WeekHeaders |

=== FILE: calendar.dfy ===
/** Calendar arithmetic on the proleptic Gregorian calendar.

    Days are plain integers: day 0 is 0001-01-01 and day n is n days later.
    This layer stands in for the date-fns helpers the tracker calls
    (startOfMonth/endOfMonth/eachDayOfInterval, startOfYear/endOfYear,
    getDay, getWeek, isSameDay). */
module Calendar {

  datatype Date = Date(year: int, month: int, day: int)

  predicate IsLeapYear(y: int) {
    y % 4 == 0 && (y % 100 != 0 || y % 400 == 0)
  }

  function DaysInYear(y: int): (n: nat)
    ensures n == 365 || n == 366
  {
    if IsLeapYear(y) then 366 else 365
  }

  function DaysInMonth(y: int, m: int): (n: nat)
    requires 1 <= m <= 12
    ensures 28 <= n <= 31
  {
    if m == 2 then (if IsLeapYear(y) then 29 else 28)
    else if m == 4 || m == 6 || m == 9 || m == 11 then 30
    else 31
  }

  /** A date that exists on the calendar, from year 1 onwards. */
  predicate ValidDate(dt: Date) {
    && dt.year >= 1
    && 1 <= dt.month <= 12
    && 1 <= dt.day <= DaysInMonth(dt.year, dt.month)
  }

  /** Days in the months of year y before month m (m = 13 gives the whole year). */
  function DaysBeforeMonth(y: int, m: int): nat
    requires 1 <= m <= 13
  {
    var cumulative := [0, 31, 59, 90, 120, 151, 181, 212, 243, 273, 304, 334, 365];
    cumulative[m - 1] + (if m > 2 && IsLeapYear(y) then 1 else 0)
  }

  /** Days in the years 1 .. y-1, by the Gregorian leap rule. */
  function DaysBeforeYear(y: int): nat
    requires y >= 1
  {
    var k := y - 1;
    365 * k + k / 4 - k / 100 + k / 400
  }

  /** The day number of a calendar date. */
  function ToDay(dt: Date): nat
    requires ValidDate(dt)
  {
    DaysBeforeYear(dt.year) + DaysBeforeMonth(dt.year, dt.month) + dt.day - 1
  }

  /** Chronological order of dates: by year, then month, then day. */
  predicate DateBefore(a: Date, b: Date) {
    || a.year < b.year
    || (a.year == b.year && a.month < b.month)
    || (a.year == b.year && a.month == b.month && a.day < b.day)
  }

  /** The months of a year partition it: the month table adds up to the year length. */
  lemma MonthStep(y: int, m: int)
    requires 1 <= m <= 12
    ensures DaysBeforeMonth(y, m + 1) == DaysBeforeMonth(y, m) + DaysInMonth(y, m)
    ensures DaysBeforeMonth(y, 1) == 0 && DaysBeforeMonth(y, 13) == DaysInYear(y)
  {
  }

  /** Each month has at least 28 days, so DaysBeforeMonth grows by at least 28 per month. */
  lemma {:induction false} MonthsMonotone(y: int, m: int, m': int)
    requires 1 <= m <= m' <= 13
    ensures DaysBeforeMonth(y, m) + 28 * (m' - m) <= DaysBeforeMonth(y, m')
    decreases m' - m
  {
    if m < m' {
      MonthStep(y, m' - 1);
      MonthsMonotone(y, m, m' - 1);
    }
  }

  /** Consecutive years are DaysInYear apart: the closed form obeys the leap rule. */
  lemma YearStep(y: int)
    requires y >= 1
    ensures DaysBeforeYear(y + 1) == DaysBeforeYear(y) + DaysInYear(y)
  {
    var k := y - 1;
    LeapCountStep(k);
  }

  /** Counting the multiples of 4, 100 and 400: k + 1 adds one to each count
      exactly when it is such a multiple. */
  lemma LeapCountStep(k: int)
    ensures (k + 1) / 4 - k / 4 == (if (k + 1) % 4 == 0 then 1 else 0)
    ensures (k + 1) / 100 - k / 100 == (if (k + 1) % 100 == 0 then 1 else 0)
    ensures (k + 1) / 400 - k / 400 == (if (k + 1) % 400 == 0 then 1 else 0)
    ensures (k + 1) % 400 == 0 ==> (k + 1) % 100 == 0
    ensures (k + 1) % 100 == 0 ==> (k + 1) % 4 == 0
  {
  }

  lemma {:induction false} YearsMonotone(a: int, b: int)
    requires 1 <= a <= b
    ensures DaysBeforeYear(a) + 365 * (b - a) <= DaysBeforeYear(b)
    decreases b - a
  {
    if a < b {
      YearStep(b - 1);
      YearsMonotone(a, b - 1);
    }
  }

  /** Each valid date lies inside its own year's block of day numbers. */
  lemma DayInsideYear(dt: Date)
    requires ValidDate(dt)
    ensures DaysBeforeYear(dt.year) <= ToDay(dt) < DaysBeforeYear(dt.year + 1)
  {
    MonthStep(dt.year, dt.month);
    MonthsMonotone(dt.year, dt.month + 1, 13);
    YearStep(dt.year);
  }

  /** Day numbering is strictly monotone in chronological order. */
  lemma {:induction false} ToDayPreservesOrder(a: Date, b: Date)
    requires ValidDate(a) && ValidDate(b)
    requires DateBefore(a, b)
    ensures ToDay(a) < ToDay(b)
  {
    if a.year < b.year {
      DayInsideYear(a);
      YearsMonotone(a.year + 1, b.year);
    } else if a.month < b.month {
      MonthStep(a.year, a.month);
      MonthsMonotone(a.year, a.month + 1, b.month);
    }
  }

  /** Chronological order of valid dates is exactly the order of their day numbers. */
  lemma ToDayOrder(a: Date, b: Date)
    requires ValidDate(a) && ValidDate(b)
    ensures DateBefore(a, b) <==> ToDay(a) < ToDay(b)
    ensures a == b <==> ToDay(a) == ToDay(b)
  {
    if DateBefore(a, b) {
      ToDayPreservesOrder(a, b);
    } else if DateBefore(b, a) {
      ToDayPreservesOrder(b, a);
    }
  }

  /** The date of day n, searching upwards for its year from a year y known to
      start no later than n. */
  function DateFrom(n: nat, y: int): (dt: Date)
    requires y >= 1 && DaysBeforeYear(y) <= n
    ensures ValidDate(dt) && dt.year >= y
    ensures ToDay(dt) == n
    decreases n - DaysBeforeYear(y)
  {
    YearStep(y);
    if n < DaysBeforeYear(y + 1) then DateInYear(n, y) else DateFrom(n, y + 1)
  }

  /** The date of day n, which lies in year y. */
  function DateInYear(n: nat, y: int): (dt: Date)
    requires y >= 1 && DaysBeforeYear(y) <= n < DaysBeforeYear(y + 1)
    ensures ValidDate(dt) && dt.year == y
    ensures ToDay(dt) == n
  {
    YearStep(y);
    var doy := n - DaysBeforeYear(y);
    var m := FindMonth(y, doy, 1);
    MonthStep(y, m);
    Date(y, m, doy - DaysBeforeMonth(y, m) + 1)
  }

  /** The month of year y holding day-of-year doy (0-based), searched upwards from m. */
  function FindMonth(y: int, doy: nat, m: int): (r: int)
    requires 1 <= m <= 12
    requires DaysBeforeMonth(y, m) <= doy < DaysInYear(y)
    ensures m <= r <= 12
    ensures DaysBeforeMonth(y, r) <= doy < DaysBeforeMonth(y, r + 1)
    decreases 12 - m
  {
    MonthStep(y, m);
    if doy < DaysBeforeMonth(y, m + 1) then m else FindMonth(y, doy, m + 1)
  }

  /** The calendar date of day n; the inverse of ToDay. */
  function FromDay(n: nat): (dt: Date)
    ensures ValidDate(dt)
    ensures ToDay(dt) == n
  {
    DateFrom(n, 1)
  }

  /** Round trip: converting a valid date to its day number and back gives the date. */
  lemma FromDayToDay(dt: Date)
    requires ValidDate(dt)
    ensures FromDay(ToDay(dt)) == dt
  {
    ToDayOrder(FromDay(ToDay(dt)), dt);
  }

  /** The day of the week, Sunday = 0 (as JavaScript's getDay); 0001-01-01 was a Monday. */
  function Weekday(n: int): (w: int)
    ensures 0 <= w < 7
    ensures w == 0 <==> (n + 1) % 7 == 0
  {
    (n + 1) % 7
  }

  /** Weekdays advance by one each day and repeat every seven days. */
  lemma WeekdayCycle(n: int)
    ensures Weekday(n + 1) == (Weekday(n) + 1) % 7
    ensures Weekday(n + 7) == Weekday(n)
  {
  }

  /** Known anchors: 1970-01-01 was a Thursday and 2024-01-01 a Monday. */
  lemma WeekdayAnchors()
    ensures Weekday(ToDay(Date(1970, 1, 1))) == 4
    ensures Weekday(ToDay(Date(2024, 1, 1))) == 1
  {
  }

  /** The Sunday on or before day n. */
  function StartOfWeek(n: int): (s: int)
    ensures s <= n < s + 7
    ensures Weekday(s) == 0
  {
    n - Weekday(n)
  }

  /** Sunday starting week 1 of week-year y: the week that contains January 1. */
  function WeekYearStart(y: int): (s: int)
    requires y >= 1
    ensures Weekday(s) == 0
    ensures s <= ToDay(Date(y, 1, 1)) < s + 7
  {
    StartOfWeek(ToDay(Date(y, 1, 1)))
  }

  /** A Sunday on or before n is on or before the start of n's week. */
  lemma SundayBeforeWeek(s: int, n: int)
    requires Weekday(s) == 0 && s <= n
    ensures s <= StartOfWeek(n)
  {
    assert (n + 1) % 7 == (n - s) % 7;
  }

  /** The week-year of a date's calendar year starts on or before the date. */
  lemma WeekYearStartsBefore(dt: Date)
    requires ValidDate(dt)
    ensures WeekYearStart(dt.year) <= ToDay(dt)
  {
    DayInsideYear(dt);
  }

  /** date-fns getWeek with its defaults (weeks start on Sunday, week 1 contains
      January 1): days of late December that share a week with the next January 1
      are in week 1. */
  function WeekNumber(n: nat): (w: int)
    ensures w >= 1
  {
    var dt := FromDay(n);
    WeekYearStartsBefore(dt);
    WeekIn(n, dt.year)
  }

  /** The week number of day n, which falls in calendar year y: counted from the
      next year's week 1 once that has begun, else from year y's own week 1. */
  function WeekIn(n: nat, y: int): (w: int)
    requires y >= 1 && WeekYearStart(y) <= n
    ensures w >= 1
    ensures n >= WeekYearStart(y + 1) ==> w == (StartOfWeek(n) - WeekYearStart(y + 1)) / 7 + 1
    ensures n < WeekYearStart(y + 1) ==> w == (StartOfWeek(n) - WeekYearStart(y)) / 7 + 1
  {
    var start := if n >= WeekYearStart(y + 1) then WeekYearStart(y + 1) else WeekYearStart(y);
    SundayBeforeWeek(start, n);
    (StartOfWeek(n) - start) / 7 + 1
  }

  /** The week number of a date's day is read off its own calendar year. */
  lemma WeekNumberOfDate(dt: Date)
    requires ValidDate(dt)
    ensures WeekYearStart(dt.year) <= ToDay(dt)
    ensures WeekNumber(ToDay(dt)) == WeekIn(ToDay(dt), dt.year)
  {
    FromDayToDay(dt);
    WeekYearStartsBefore(dt);
  }

  /** Every day of a month, first to last, ascending. */
  function MonthDays(y: int, m: int): (days: seq<nat>)
    requires y >= 1 && 1 <= m <= 12
    ensures |days| == DaysInMonth(y, m)
    ensures forall i :: 0 <= i < |days| ==> days[i] == ToDay(Date(y, m, 1)) + i
  {
    var first := ToDay(Date(y, m, 1));
    seq(DaysInMonth(y, m), i requires 0 <= i => first + i)
  }

  /** Entry i of MonthDays(y, m) is the date y-m-(i+1). */
  lemma MonthDaysDates(y: int, m: int)
    requires y >= 1 && 1 <= m <= 12
    ensures forall i :: 0 <= i < |MonthDays(y, m)| ==> FromDay(MonthDays(y, m)[i]) == Date(y, m, i + 1)
  {
    var days := MonthDays(y, m);
    forall i | 0 <= i < |days|
      ensures FromDay(days[i]) == Date(y, m, i + 1)
    {
      assert days[i] == ToDay(Date(y, m, i + 1));
      FromDayToDay(Date(y, m, i + 1));
    }
  }

  /** The days of the month that contains day ref, first to last. */
  function MonthOf(ref: nat): (days: seq<nat>)
    ensures 28 <= |days| <= 31
    ensures forall i :: 0 <= i < |days| ==> days[i] == days[0] + i
  {
    var dt := FromDay(ref);
    MonthDays(dt.year, dt.month)
  }

  /** MonthOf(ref) is exactly the month of ref, day i + 1 at index i. */
  lemma MonthOfContents(ref: nat)
    ensures ref in MonthOf(ref)
    ensures forall i :: 0 <= i < |MonthOf(ref)| ==>
      FromDay(MonthOf(ref)[i]) == Date(FromDay(ref).year, FromDay(ref).month, i + 1)
    ensures forall d: nat :: d in MonthOf(ref) <==>
      FromDay(d).year == FromDay(ref).year && FromDay(d).month == FromDay(ref).month
  {
    var dt := FromDay(ref);
    var days := MonthOf(ref);
    MonthDaysDates(dt.year, dt.month);
    assert days[dt.day - 1] == ref by {
      FromDayToDay(dt);
      ToDayOrder(FromDay(days[dt.day - 1]), dt);
    }
    forall d: nat | FromDay(d).year == dt.year && FromDay(d).month == dt.month
      ensures d in days
    {
      var e := FromDay(d);
      ToDayOrder(FromDay(days[e.day - 1]), e);
    }
  }

  /** The month that begins on the first of month m of year y lists that day, the
      next, and so on, one entry per day of the month. */
  lemma MonthFromFirst(y: int, m: int)
    requires y >= 1 && 1 <= m <= 12
    ensures |MonthOf(ToDay(Date(y, m, 1)))| == DaysInMonth(y, m)
    ensures forall i :: 0 <= i < |MonthOf(ToDay(Date(y, m, 1)))| ==>
      MonthOf(ToDay(Date(y, m, 1)))[i] == ToDay(Date(y, m, 1)) + i
  {
    FromDayToDay(Date(y, m, 1));
    assert MonthOf(ToDay(Date(y, m, 1))) == MonthDays(y, m);
  }

  /** Day d belongs to year y exactly when it lies in y's block of day numbers. */
  lemma YearBlock(y: int, d: nat)
    requires y >= 1
    ensures FromDay(d).year == y <==> DaysBeforeYear(y) <= d < DaysBeforeYear(y + 1)
  {
    DateInYearBlock(y, FromDay(d));
  }

  lemma DateInYearBlock(y: int, e: Date)
    requires y >= 1 && ValidDate(e)
    ensures e.year == y <==> DaysBeforeYear(y) <= ToDay(e) < DaysBeforeYear(y + 1)
  {
    DayInsideYear(e);
    if e.year < y {
      YearsMonotone(e.year + 1, y);
    } else if e.year > y {
      YearsMonotone(y + 1, e.year);
    }
  }

  /** Every day of a year, January 1 to December 31, ascending. */
  function YearDays(y: int): (days: seq<nat>)
    requires y >= 1
    ensures |days| == DaysInYear(y)
    ensures |days| == 366 <==> IsLeapYear(y)
    ensures forall i :: 0 <= i < |days| ==> days[i] == ToDay(Date(y, 1, 1)) + i
    ensures forall d: nat :: d in days <==> FromDay(d).year == y
  {
    var first := ToDay(Date(y, 1, 1));
    var days := seq(DaysInYear(y), i requires 0 <= i => first + i);
    YearDaysMembers(y, days);
    days
  }

  /** The DaysInYear(y) consecutive days from January 1 are exactly the days of year y. */
  lemma YearDaysMembers(y: int, days: seq<nat>)
    requires y >= 1 && |days| == DaysInYear(y)
    requires forall i :: 0 <= i < |days| ==> days[i] == ToDay(Date(y, 1, 1)) + i
    ensures forall d: nat :: d in days <==> FromDay(d).year == y
  {
    var first := ToDay(Date(y, 1, 1));
    YearStep(y);
    forall d: nat
      ensures d in days <==> FromDay(d).year == y
    {
      YearBlock(y, d);
      if first <= d < first + |days| {
        assert days[d - first] == d;
      }
    }
  }
}

=== FILE: dashboard.dfy ===
/** The monthly dashboard: a per-day trend series, the month's completion totals,
    the mood histogram and the "forest" growth score. Unlike the grid and the
    heatmap, the dashboard counts every true entry stored for a day, including
    entries left behind by deleted habits, so its percentages stay within 100
    only while no such orphaned entry exists. */
module Dashboard {
  import opened Calendar
  import opened LogStore
  import opened Ratios

  // ---------------------------------------------------------------- day totals

  /** The ids marked true on day d, whether or not they name a listed habit. */
  function TrueIds(logs: Logs, d: Day): (ids: set<HabitId>)
    ensures forall k :: k in ids <==> Done(logs, d, k)
  {
    if d in logs then set k | k in logs[d] && logs[d][k] else {}
  }

  /** How many true values are stored for day d (`Object.values(dayLogs).filter(Boolean).length`). */
  function DayTotal(logs: Logs, d: Day): (n: nat)
    ensures n == 0 <==> forall k :: !Done(logs, d, k)
  {
    NoneTrue(logs, d);
    |TrueIds(logs, d)|
  }

  lemma NoneTrue(logs: Logs, d: Day)
    ensures TrueIds(logs, d) == {} <==> forall k :: !Done(logs, d, k)
  {
    if forall k :: !Done(logs, d, k) {
      assert forall k :: k !in TrueIds(logs, d);
    } else {
      var k :| Done(logs, d, k);
      assert k in TrueIds(logs, d);
    }
  }

  /** The listed habits that are done on day d, as a set of ids. */
  function DoneAmong(logs: Logs, habits: seq<Habit>, d: Day): set<HabitId> {
    set i | 0 <= i < |habits| && Done(logs, d, habits[i].id) :: habits[i].id
  }

  /** With distinct ids, the grid's per-habit count is the size of DoneAmong. */
  lemma {:induction false} CountDoneIsSetSize(logs: Logs, habits: seq<Habit>, d: Day)
    requires UniqueIds(habits)
    ensures CountDone(logs, habits, d) == |DoneAmong(logs, habits, d)|
    decreases |habits|
  {
    if |habits| > 0 {
      CountDoneIsSetSize(logs, habits[1..], d);
      DoneAmongCons(logs, habits, d);
    }
  }

  /** DoneAmong of a non-empty list: the head's id when it is done, added to the
      tail's set, which does not already hold it. */
  lemma DoneAmongCons(logs: Logs, habits: seq<Habit>, d: Day)
    requires |habits| > 0 && UniqueIds(habits)
    ensures habits[0].id !in DoneAmong(logs, habits[1..], d)
    ensures DoneAmong(logs, habits, d) ==
      (if Done(logs, d, habits[0].id) then {habits[0].id} else {}) + DoneAmong(logs, habits[1..], d)
  {
    var tail := habits[1..];
    var head := if Done(logs, d, habits[0].id) then {habits[0].id} else {};
    forall k
      ensures k in DoneAmong(logs, habits, d) <==> k in head + DoneAmong(logs, tail, d)
    {
      if k in DoneAmong(logs, habits, d) {
        var i :| 0 <= i < |habits| && Done(logs, d, habits[i].id) && habits[i].id == k;
        if i > 0 {
          assert tail[i - 1] == habits[i];
        }
      }
      if k in DoneAmong(logs, tail, d) {
        var i :| 0 <= i < |tail| && Done(logs, d, tail[i].id) && tail[i].id == k;
        assert habits[i + 1] == tail[i];
      }
    }
    forall i | 0 <= i < |tail|
      ensures tail[i].id != habits[0].id
    {
      assert tail[i] == habits[i + 1];
    }
  }

  /** The dashboard never counts fewer completions than the grid does. */
  lemma DayTotalAtLeastListed(logs: Logs, habits: seq<Habit>, d: Day)
    requires UniqueIds(habits)
    ensures CountDone(logs, habits, d) <= DayTotal(logs, d)
  {
    CountDoneIsSetSize(logs, habits, d);
    assert DoneAmong(logs, habits, d) <= TrueIds(logs, d);
    SubsetSize(DoneAmong(logs, habits, d), TrueIds(logs, d));
  }

  lemma SubsetSize(a: set<HabitId>, b: set<HabitId>)
    requires a <= b
    ensures |a| <= |b|
  {
    assert b == a + (b - a);
  }

  /** Without orphaned entries the dashboard and the grid count the same. */
  lemma DayTotalMatchesListed(logs: Logs, habits: seq<Habit>, d: Day)
    requires UniqueIds(habits) && NoOrphans(logs, habits)
    ensures DayTotal(logs, d) == CountDone(logs, habits, d)
    ensures DayTotal(logs, d) <= |habits|
  {
    CountDoneIsSetSize(logs, habits, d);
    forall k | k in TrueIds(logs, d)
      ensures k in DoneAmong(logs, habits, d)
    {
      assert k in Ids(habits);
      var i :| 0 <= i < |habits| && habits[i].id == k;
    }
    assert TrueIds(logs, d) == DoneAmong(logs, habits, d);
  }

  /** Without orphaned entries a day counts at most one completion per listed
      habit, whether or not the listed ids repeat. */
  lemma DayTotalWithinHabits(logs: Logs, habits: seq<Habit>, d: Day)
    requires NoOrphans(logs, habits)
    ensures DayTotal(logs, d) <= |habits|
  {
    forall k | k in TrueIds(logs, d)
      ensures k in Ids(habits)
    {
      assert Done(logs, d, k);
    }
    SubsetSize(TrueIds(logs, d), Ids(habits));
    IdsAtMostListed(habits);
  }

  // ---------------------------------------------------------------- trend

  /** One point of the trend chart: the day, its count and its percentage. */
  datatype TrendPoint = TrendPoint(day: Day, count: nat, percentage: nat)

  /** The trend point of every day of days, in order. */
  function TrendOver(logs: Logs, habits: seq<Habit>, days: seq<Day>): (points: seq<TrendPoint>)
    ensures |points| == |days|
    ensures forall i :: 0 <= i < |points| ==> points[i].day == days[i]
    ensures forall i :: 0 <= i < |points| ==>
      points[i].count == DayTotal(logs, points[i].day) &&
      points[i].percentage == Percent(points[i].count, |habits|)
    ensures |habits| == 0 ==> forall i :: 0 <= i < |points| ==> points[i].percentage == 0
  {
    seq(|days|, i requires 0 <= i < |days| =>
      TrendPoint(days[i], DayTotal(logs, days[i]), Percent(DayTotal(logs, days[i]), |habits|)))
  }

  /** `trendData`: a point for every day of the month containing ref, in order. */
  function Trend(logs: Logs, habits: seq<Habit>, ref: nat): (points: seq<TrendPoint>)
    ensures |points| == |MonthOf(ref)|
    ensures forall i :: 0 <= i < |points| ==> points[i].day == MonthOf(ref)[i]
    ensures forall i :: 0 <= i < |points| ==>
      points[i].count == DayTotal(logs, points[i].day) &&
      points[i].percentage == Percent(points[i].count, |habits|)
  {
    TrendOver(logs, habits, MonthOf(ref))
  }

  /** Without orphaned entries every trend percentage lies in 0..100. */
  lemma TrendWithinHundred(logs: Logs, habits: seq<Habit>, ref: nat)
    requires NoOrphans(logs, habits)
    ensures forall p :: p in Trend(logs, habits, ref) ==> p.percentage <= 100
  {
    forall p | p in Trend(logs, habits, ref)
      ensures p.percentage <= 100
    {
      DayTotalWithinHabits(logs, habits, p.day);
    }
  }

  /** An entry left behind by a deleted habit pushes a day past 100 percent: one
      listed habit, done, plus a true entry for a habit no longer listed. */
  lemma OrphanInflatesTrend(d: Day, color: Color)
    ensures DayTotal(map[d := map[1 := true, 2 := true]], d) == 2
    ensures Percent(DayTotal(map[d := map[1 := true, 2 := true]], d), |[Habit(1, "Read", color)]|) == 200
  {
    var logs := map[d := map[1 := true, 2 := true]];
    assert TrueIds(logs, d) == {1, 2};
  }

  // ---------------------------------------------------------------- month totals

  /** The sum of DayTotal over days. */
  function SumTotals(logs: Logs, days: seq<Day>): nat {
    if |days| == 0 then 0 else SumTotals(logs, days[..|days| - 1]) + DayTotal(logs, days[|days| - 1])
  }

  /** The sum of the counts of a trend series. */
  function SumCounts(points: seq<TrendPoint>): nat {
    if |points| == 0 then 0 else SumCounts(points[..|points| - 1]) + points[|points| - 1].count
  }

  datatype Stats = Stats(totalCompleted: nat, totalPossible: nat, percentage: nat)

  /** `completionStats` over a given list of days: possible = days times habits,
      completed = the day totals accumulated one day at a time; percentage 0 when
      nothing is possible. */
  method StatsOver(logs: Logs, habits: seq<Habit>, days: seq<Day>) returns (stats: Stats)
    ensures stats.totalPossible == |days| * |habits|
    ensures stats.totalCompleted == SumTotals(logs, days)
    ensures stats.percentage == Percent(stats.totalCompleted, stats.totalPossible)
    ensures stats.totalPossible == 0 ==> stats.percentage == 0
  {
    var totalPossible := |days| * |habits|;
    var totalCompleted := 0;
    for i := 0 to |days|
      invariant totalCompleted == SumTotals(logs, days[..i])
    {
      assert days[..i + 1][..i] == days[..i];
      totalCompleted := totalCompleted + DayTotal(logs, days[i]);
    }
    assert days[..|days|] == days;
    stats := Stats(totalCompleted, totalPossible, Percent(totalCompleted, totalPossible));
  }

  /** `completionStats` for the month of ref. */
  method CompletionStats(logs: Logs, habits: seq<Habit>, ref: nat) returns (stats: Stats)
    ensures stats.totalPossible == |MonthOf(ref)| * |habits|
    ensures stats.totalCompleted == SumTotals(logs, MonthOf(ref))
    ensures stats.percentage == Percent(stats.totalCompleted, stats.totalPossible)
    ensures stats.totalPossible == 0 ==> stats.percentage == 0
  {
    stats := StatsOver(logs, habits, MonthOf(ref));
  }

  /** The month's completed total is the sum of the trend chart's counts. */
  lemma StatsMatchTrend(logs: Logs, habits: seq<Habit>, ref: nat)
    ensures SumCounts(Trend(logs, habits, ref)) == SumTotals(logs, MonthOf(ref))
  {
    TrendSumIsTotal(logs, habits, MonthOf(ref));
  }

  lemma TrendSumIsTotal(logs: Logs, habits: seq<Habit>, days: seq<Day>)
    ensures SumCounts(TrendOver(logs, habits, days)) == SumTotals(logs, days)
  {
    var points := TrendOver(logs, habits, days);
    SumsAgree(logs, points, days, |days|);
    assert points[..|days|] == points && days[..|days|] == days;
  }

  lemma {:induction false} SumsAgree(logs: Logs, points: seq<TrendPoint>, days: seq<Day>, n: nat)
    requires n <= |points| == |days|
    requires forall i :: 0 <= i < |points| ==> points[i].count == DayTotal(logs, days[i])
    ensures SumCounts(points[..n]) == SumTotals(logs, days[..n])
  {
    if n > 0 {
      SumsAgree(logs, points, days, n - 1);
      assert points[..n][..n - 1] == points[..n - 1];
      assert days[..n][..n - 1] == days[..n - 1];
    }
  }

  /** Without orphaned entries no day exceeds the habit count, so the month's
      completed total stays within the possible total and the percentage within 100. */
  lemma StatsWithinHundred(logs: Logs, habits: seq<Habit>, ref: nat)
    requires NoOrphans(logs, habits)
    ensures SumTotals(logs, MonthOf(ref)) <= |MonthOf(ref)| * |habits|
    ensures Percent(SumTotals(logs, MonthOf(ref)), |MonthOf(ref)| * |habits|) <= 100
  {
    SumWithin(logs, habits, MonthOf(ref));
  }

  lemma {:induction false} SumWithin(logs: Logs, habits: seq<Habit>, days: seq<Day>)
    requires NoOrphans(logs, habits)
    ensures SumTotals(logs, days) <= |days| * |habits|
    decreases |days|
  {
    if |days| > 0 {
      SumWithin(logs, habits, days[..|days| - 1]);
      DayTotalWithinHabits(logs, habits, days[|days| - 1]);
      assert |days| * |habits| == (|days| - 1) * |habits| + |habits|;
    }
  }

  // ---------------------------------------------------------------- moods

  /** How many of days carry exactly the given mood label. */
  function CountLabel(moods: Moods, days: seq<Day>, mood: string): (n: nat)
    ensures n <= |days|
  {
    if |days| == 0 then 0
    else
      var last := days[|days| - 1];
      CountLabel(moods, days[..|days| - 1], mood) + (if last in moods && moods[last] == mood then 1 else 0)
  }

  /** The count shown for a mood label: `moodStats[m] || 0`. */
  function HeadlineCount(counts: map<string, nat>, mood: string): (n: nat)
    ensures mood in counts ==> n == counts[mood]
    ensures mood !in counts ==> n == 0
  {
    if mood in counts then counts[mood] else 0
  }

  /** The histogram of the non-empty mood labels of days. */
  method MoodHistogram(moods: Moods, days: seq<Day>) returns (counts: map<string, nat>)
    ensures forall mood :: mood in counts <==> mood != "" && CountLabel(moods, days, mood) > 0
    ensures forall mood :: mood != "" ==> HeadlineCount(counts, mood) == CountLabel(moods, days, mood)
  {
    counts := map[];
    for i := 0 to |days|
      invariant forall mood :: mood in counts <==> mood != "" && CountLabel(moods, days[..i], mood) > 0
      invariant forall mood :: mood != "" ==> HeadlineCount(counts, mood) == CountLabel(moods, days[..i], mood)
    {
      assert days[..i + 1][..i] == days[..i];
      var d := days[i];
      if d in moods && moods[d] != "" {
        var m := moods[d];
        counts := counts[m := HeadlineCount(counts, m) + 1];
      }
    }
    assert days[..|days|] == days;
  }

  /** `moodStats`: for every day of the month containing ref that has a non-empty
      mood label, one more under that label. */
  method MoodStats(moods: Moods, ref: nat) returns (counts: map<string, nat>)
    ensures forall mood :: mood in counts <==> mood != "" && CountLabel(moods, MonthOf(ref), mood) > 0
    ensures forall mood :: mood != "" ==> HeadlineCount(counts, mood) == CountLabel(moods, MonthOf(ref), mood)
  {
    counts := MoodHistogram(moods, MonthOf(ref));
  }

  /** The total over any list of distinct labels. */
  function SumLabels(moods: Moods, days: seq<Day>, labels: seq<string>): nat {
    if |labels| == 0 then 0 else CountLabel(moods, days, labels[0]) + SumLabels(moods, days, labels[1..])
  }

  predicate Distinct(labels: seq<string>) {
    forall i, j :: 0 <= i < j < |labels| ==> labels[i] != labels[j]
  }

  /** How many of the labels are the mood of day d: at most one, when distinct. */
  function Hits(moods: Moods, d: Day, labels: seq<string>): (n: nat)
    requires Distinct(labels)
    ensures n <= 1
    ensures n == 0 <==> !(d in moods && moods[d] in labels)
  {
    if |labels| == 0 then 0
    else
      var rest := Hits(moods, d, labels[1..]);
      assert labels == [labels[0]] + labels[1..];
      if d in moods && moods[d] == labels[0] then
        1 + rest
      else rest
  }

  /** Adding one more day adds its hits to the sum over the labels. */
  lemma {:induction false} SumLabelsStep(moods: Moods, days: seq<Day>, labels: seq<string>)
    requires |days| > 0 && Distinct(labels)
    ensures SumLabels(moods, days, labels) ==
      SumLabels(moods, days[..|days| - 1], labels) + Hits(moods, days[|days| - 1], labels)
    decreases |labels|
  {
    if |labels| > 0 {
      SumLabelsStep(moods, days, labels[1..]);
    }
  }

  /** Each day counts under at most one mood, so the histogram's counts over any
      distinct labels add up to at most the number of days. */
  lemma {:induction false} MoodCountsWithinDays(moods: Moods, days: seq<Day>, labels: seq<string>)
    requires Distinct(labels)
    ensures SumLabels(moods, days, labels) <= |days|
    decreases |days|
  {
    if |days| == 0 {
      EmptyDaysSum(moods, labels);
    } else {
      SumLabelsStep(moods, days, labels);
      MoodCountsWithinDays(moods, days[..|days| - 1], labels);
    }
  }

  lemma {:induction false} EmptyDaysSum(moods: Moods, labels: seq<string>)
    ensures SumLabels(moods, [], labels) == 0
    decreases |labels|
  {
    if |labels| > 0 {
      EmptyDaysSum(moods, labels[1..]);
    }
  }

  // ---------------------------------------------------------------- forest

  /** One tree for every five completions plus one for every three happy days. */
  function GrowthScore(totalCompleted: nat, happy: nat): (trees: nat)
    ensures trees == 0 <==> totalCompleted < 5 && happy < 3
    ensures trees * 15 <= 3 * totalCompleted + 5 * happy
  {
    totalCompleted / 5 + happy / 3
  }

  /** Five more completions, or three more happy days, grow exactly one tree;
      the score never shrinks as either input grows. */
  lemma GrowthSteps(totalCompleted: nat, happy: nat, moreCompleted: nat, moreHappy: nat)
    ensures GrowthScore(totalCompleted + 5, happy) == GrowthScore(totalCompleted, happy) + 1
    ensures GrowthScore(totalCompleted, happy + 3) == GrowthScore(totalCompleted, happy) + 1
    ensures GrowthScore(totalCompleted, happy) <= GrowthScore(totalCompleted + moreCompleted, happy + moreHappy)
  {
  }

  /** The number of tree icons drawn: the score, capped at 50. */
  function VisibleTrees(score: nat): (n: nat)
    ensures n <= 50 && n <= score
    ensures n == score <==> score <= 50
    ensures score >= 50 ==> n == 50
  {
    if score < 50 then score else 50
  }
}

=== FILE: datekeys.dfy ===
/** The `yyyy-MM-dd` date key under which the tracker stores every log entry
    (the full-date form of section 5.6 of RFC 3339), and the fact the log relies
    on: comparing keys as strings compares the dates chronologically
    (section 5.1 of RFC 3339), so the key order and the day-number order agree. */
module DateKeys {
  import opened Calendar

  function DigitChar(d: int): (c: char)
    requires 0 <= d < 10
    ensures '0' <= c <= '9'
    ensures c as int - '0' as int == d
  {
    (('0' as int) + d) as char
  }

  function Pow10(w: nat): (p: nat)
    ensures p >= 1
  {
    if w == 0 then 1 else 10 * Pow10(w - 1)
  }

  /** The last `width` decimal digits of n, most significant first, zero-padded. */
  function Digits(n: nat, width: nat): (s: string)
    ensures |s| == width
    ensures forall i :: 0 <= i < |s| ==> '0' <= s[i] <= '9'
  {
    if width == 0 then [] else Digits(n / 10, width - 1) + [DigitChar(n % 10)]
  }

  /** How many decimal digits n has (at least one). */
  function DigitCount(n: nat): (k: nat)
    ensures k >= 1
    ensures n < Pow10(k)
  {
    if n < 10 then 1 else 1 + DigitCount(n / 10)
  }

  /** date-fns `yyyy`: the year in decimal, zero-padded to at least four digits. */
  function YearText(y: nat): (s: string)
    ensures |s| >= 4
    ensures y < 10000 ==> |s| == 4
  {
    var k := DigitCount(y);
    if y < 10000 then
      assert Pow10(4) == 10000;
      DigitCountBound(y, 4);
      Digits(y, 4)
    else
      Digits(y, if k < 4 then 4 else k)
  }

  /** The storage key of a date, `yyyy-MM-dd`. */
  function Key(dt: Date): (s: string)
    requires ValidDate(dt)
    ensures dt.year < 10000 ==> |s| == 10 && s[4] == '-' && s[7] == '-'
  {
    YearText(dt.year) + "-" + Digits(dt.month, 2) + "-" + Digits(dt.day, 2)
  }

  /** JavaScript's string `<`: lexicographic by character code, a proper prefix first. */
  predicate LexLess(a: string, b: string) {
    if |a| == 0 then |b| > 0
    else if |b| == 0 then false
    else if a[0] != b[0] then a[0] < b[0]
    else LexLess(a[1..], b[1..])
  }

  /** Comparing two strings split at the same position compares the heads first. */
  lemma {:induction false} LexConcat(p: string, q: string, s: string, t: string)
    requires |p| == |q|
    ensures LexLess(p + s, q + t) <==> LexLess(p, q) || (p == q && LexLess(s, t))
    decreases |p|
  {
    if |p| > 0 {
      assert (p + s)[0] == p[0] && (q + t)[0] == q[0];
      assert (p + s)[1..] == p[1..] + s && (q + t)[1..] == q[1..] + t;
      LexConcat(p[1..], q[1..], s, t);
      if p[0] == q[0] {
        assert p == q <==> p[1..] == q[1..] by {
          if p[1..] == q[1..] {
            assert p == [p[0]] + p[1..] && q == [q[0]] + q[1..];
          }
        }
      }
    } else {
      assert p + s == s && q + t == t;
    }
  }

  /** Fixed-width digit strings compare as the numbers they spell. */
  lemma {:induction false} DigitsOrder(a: nat, b: nat, width: nat)
    requires a < Pow10(width) && b < Pow10(width)
    ensures LexLess(Digits(a, width), Digits(b, width)) <==> a < b
    ensures Digits(a, width) == Digits(b, width) <==> a == b
  {
    if width > 0 {
      DigitsOrder(a / 10, b / 10, width - 1);
      var ca, cb := [DigitChar(a % 10)], [DigitChar(b % 10)];
      LexConcat(Digits(a / 10, width - 1), Digits(b / 10, width - 1), ca, cb);
      assert LexLess(ca, cb) <==> a % 10 < b % 10 by {
        assert ca[1..] == [] && cb[1..] == [];
      }
      if Digits(a, width) == Digits(b, width) {
        assert Digits(a / 10, width - 1) == Digits(a, width)[..width - 1];
        assert Digits(b / 10, width - 1) == Digits(b, width)[..width - 1];
        assert ca[0] == Digits(a, width)[width - 1];
        assert cb[0] == Digits(b, width)[width - 1];
      }
    }
  }

  /** Two `yyyy-MM-dd` shaped strings compare field by field. */
  lemma KeyShapeCompare(ya: string, yb: string, ma: string, mb: string, da: string, db: string)
    requires |ya| == |yb| && |ma| == |mb|
    ensures LexLess(ya + "-" + ma + "-" + da, yb + "-" + mb + "-" + db) <==>
      LexLess(ya, yb) || (ya == yb && (LexLess(ma, mb) || (ma == mb && LexLess(da, db))))
    ensures ya + "-" + ma + "-" + da == yb + "-" + mb + "-" + db <==>
      ya == yb && ma == mb && da == db
  {
    var ta, tb := "-" + ma + "-" + da, "-" + mb + "-" + db;
    assert ya + "-" + ma + "-" + da == ya + ta;
    assert yb + "-" + mb + "-" + db == yb + tb;
    LexConcat(ya, yb, ta, tb);
    assert ta == "-" + (ma + ("-" + da)) && tb == "-" + (mb + ("-" + db));
    LexConcat("-", "-", ma + ("-" + da), mb + ("-" + db));
    LexConcat(ma, mb, "-" + da, "-" + db);
    LexConcat("-", "-", da, db);
    assert !LexLess("-", "-");
    if ya + ta == yb + tb {
      assert ya == (ya + ta)[..|ya|] && yb == (yb + tb)[..|yb|];
      assert ta == (ya + ta)[|ya|..] && tb == (yb + tb)[|yb|..];
      assert ma == ta[1..1 + |ma|] && mb == tb[1..1 + |mb|];
      assert da == ta[2 + |ma|..] && db == tb[2 + |mb|..];
    }
  }

  /** Section 5.1 of RFC 3339 for four-digit years: key order is date order, and
      distinct dates have distinct keys. */
  lemma KeyOrder(a: Date, b: Date)
    requires ValidDate(a) && ValidDate(b)
    requires a.year < 10000 && b.year < 10000
    ensures LexLess(Key(a), Key(b)) <==> ToDay(a) < ToDay(b)
    ensures Key(a) == Key(b) <==> a == b
  {
    ToDayOrder(a, b);
    assert Pow10(2) == 100 && Pow10(4) == 10000;
    assert YearText(a.year) == Digits(a.year, 4) && YearText(b.year) == Digits(b.year, 4);
    DigitsOrder(a.year, b.year, 4);
    DigitsOrder(a.month, b.month, 2);
    DigitsOrder(a.day, b.day, 2);
    KeyShapeCompare(Digits(a.year, 4), Digits(b.year, 4), Digits(a.month, 2), Digits(b.month, 2),
                    Digits(a.day, 2), Digits(b.day, 2));
  }

  lemma {:induction false} DigitCountBound(n: nat, k: nat)
    requires n < Pow10(k) && k >= 1
    ensures DigitCount(n) <= k
    decreases k
  {
    if n >= 10 {
      DigitCountBound(n / 10, k - 1);
    }
  }

  /** Beyond year 9999 the padding no longer lines the keys up: the first day of
      year 10000 sorts before the last day of year 9999. */
  lemma FiveDigitYearBreaksOrder()
    ensures ValidDate(Date(10000, 1, 1)) && ValidDate(Date(9999, 12, 31))
    ensures LexLess(Key(Date(10000, 1, 1)), Key(Date(9999, 12, 31)))
    ensures ToDay(Date(9999, 12, 31)) < ToDay(Date(10000, 1, 1))
  {
    assert DigitCount(10000) == 5;
    assert DigitCount(9999) == 4;
    assert YearText(10000)[0] == '1';
    assert YearText(9999)[0] == '9';
    assert Key(Date(10000, 1, 1))[0] == '1';
    assert Key(Date(9999, 12, 31))[0] == '9';
  }
}

=== FILE: habitgrid.dfy ===
/** The monthly habit grid: the visible day columns (the whole month, or one day in
    focus mode), the week headers above them, the per-day summary rows and the
    per-habit progress column. */
module HabitGrid {
  import opened Calendar
  import opened LogStore
  import opened Ratios

  // ---------------------------------------------------------------- visible days

  predicate SameMonth(a: nat, b: nat) {
    FromDay(a).year == FromDay(b).year && FromDay(a).month == FromDay(b).month
  }

  /** `visibleDays`: the month of ref; in focus mode only today when today is in
      that month, otherwise the month's first day. today is supplied by the caller. */
  function VisibleDays(ref: nat, focused: bool, today: nat): (vis: seq<Day>)
    ensures !focused ==> vis == MonthOf(ref)
    ensures focused ==> |vis| == 1
    ensures focused && SameMonth(today, ref) ==> vis == [today]
    ensures focused && !SameMonth(today, ref) ==>
      vis[0] >= 0 && FromDay(vis[0]) == Date(FromDay(ref).year, FromDay(ref).month, 1)
  {
    var days := MonthOf(ref);
    MonthOfContents(ref);
    if !focused then days
    else if today in days then [today]
    else [days[0]]
  }

  // ---------------------------------------------------------------- week groups

  /** A week header: its week number and the days under it. */
  datatype WeekGroup = WeekGroup(week: int, days: seq<Day>)

  /** The days of days that fall in week w, in their original order. */
  function InWeek(days: seq<Day>, weekOf: Day -> int, w: int): (r: seq<Day>)
    ensures |r| <= |days|
    ensures forall d :: d in r <==> d in days && weekOf(d) == w
  {
    if |days| == 0 then []
    else
      var init, last := days[..|days| - 1], days[|days| - 1];
      assert days == init + [last];
      if weekOf(last) == w then InWeek(init, weekOf, w) + [last] else InWeek(init, weekOf, w)
  }

  predicate WeeksAscending(groups: seq<WeekGroup>) {
    forall i, j :: 0 <= i < j < |groups| ==> groups[i].week < groups[j].week
  }

  function Weeks(groups: seq<WeekGroup>): set<int> {
    set i | 0 <= i < |groups| :: groups[i].week
  }

  /** The days under the header of week w; none when there is no such header. */
  function GroupOf(groups: seq<WeekGroup>, w: int): seq<Day> {
    if |groups| == 0 then []
    else if groups[0].week == w then groups[0].days
    else GroupOf(groups[1..], w)
  }

  function TotalSize(groups: seq<WeekGroup>): nat {
    if |groups| == 0 then 0 else |groups[0].days| + TotalSize(groups[1..])
  }

  /** The days of all headers, left to right. */
  function Flatten(groups: seq<WeekGroup>): seq<Day> {
    if |groups| == 0 then [] else groups[0].days + Flatten(groups[1..])
  }

  lemma {:induction false} FlattenSize(groups: seq<WeekGroup>)
    ensures |Flatten(groups)| == TotalSize(groups)
  {
    if |groups| > 0 {
      FlattenSize(groups[1..]);
    }
  }

  lemma WeeksCons(g: WeekGroup, rest: seq<WeekGroup>)
    ensures Weeks([g] + rest) == {g.week} + Weeks(rest)
  {
    var r := [g] + rest;
    forall v | v in Weeks(r)
      ensures v in {g.week} + Weeks(rest)
    {
      var i :| 0 <= i < |r| && r[i].week == v;
      if i > 0 {
        assert rest[i - 1].week == v;
      }
    }
    assert g.week in Weeks(r) by {
      assert r[0].week == g.week;
    }
    forall v | v in Weeks(rest)
      ensures v in Weeks(r)
    {
      var i :| 0 <= i < |rest| && rest[i].week == v;
      assert r[i + 1].week == v;
    }
  }

  /** No header of week w: no days under it. */
  lemma {:induction false} GroupOfMissing(groups: seq<WeekGroup>, w: int)
    requires w !in Weeks(groups)
    ensures GroupOf(groups, w) == []
  {
    if |groups| > 0 {
      assert groups == [groups[0]] + groups[1..];
      WeeksCons(groups[0], groups[1..]);
      GroupOfMissing(groups[1..], w);
    }
  }

  /** A group whose week is below every week of an ascending list can go in front. */
  lemma ConsAscending(g: WeekGroup, rest: seq<WeekGroup>)
    requires WeeksAscending(rest)
    requires forall v :: v in Weeks(rest) ==> g.week < v
    ensures WeeksAscending([g] + rest)
    ensures Weeks([g] + rest) == {g.week} + Weeks(rest)
  {
    WeeksCons(g, rest);
    var r := [g] + rest;
    forall i, j | 0 <= i < j < |r|
      ensures r[i].week < r[j].week
    {
      assert r[j] == rest[j - 1];
      if i == 0 {
        assert rest[j - 1].week in Weeks(rest);
      } else {
        assert r[i] == rest[i - 1];
      }
    }
  }

  /** The head of an ascending list is below every week of its tail. */
  lemma HeadBelowTail(groups: seq<WeekGroup>)
    requires WeeksAscending(groups) && |groups| > 0
    ensures WeeksAscending(groups[1..])
    ensures forall v :: v in Weeks(groups[1..]) ==> groups[0].week < v
  {
    var tail := groups[1..];
    forall v | v in Weeks(tail)
      ensures groups[0].week < v
    {
      var i :| 0 <= i < |tail| && tail[i].week == v;
      assert tail[i] == groups[i + 1];
    }
  }

  /** Push day d (of week w) into the week map kept sorted by week: onto the end of
      its week's list, or as a new list at its sorted place. */
  function AddToWeek(groups: seq<WeekGroup>, d: Day, w: int): (r: seq<WeekGroup>)
    requires WeeksAscending(groups)
    ensures WeeksAscending(r)
    ensures Weeks(r) == Weeks(groups) + {w}
  {
    if |groups| == 0 then
      WeeksCons(WeekGroup(w, [d]), []);
      [WeekGroup(w, [d])]
    else
      HeadBelowTail(groups);
      assert groups == [groups[0]] + groups[1..];
      ConsAscending(groups[0], groups[1..]);
      if groups[0].week == w then
        ConsAscending(WeekGroup(w, groups[0].days + [d]), groups[1..]);
        [WeekGroup(w, groups[0].days + [d])] + groups[1..]
      else if w < groups[0].week then
        ConsAscending(WeekGroup(w, [d]), groups);
        [WeekGroup(w, [d])] + groups
      else
        var rest := AddToWeek(groups[1..], d, w);
        ConsAscending(groups[0], rest);
        [groups[0]] + rest
  }

  /** Pushing d adds it at the end of week w's list and to no other list. */
  lemma {:induction false} AddToWeekContents(groups: seq<WeekGroup>, d: Day, w: int, v: int)
    requires WeeksAscending(groups)
    ensures GroupOf(AddToWeek(groups, d, w), v) == GroupOf(groups, v) + (if v == w then [d] else [])
    ensures TotalSize(AddToWeek(groups, d, w)) == TotalSize(groups) + 1
    decreases |groups|
  {
    var r := AddToWeek(groups, d, w);
    if |groups| > 0 {
      if groups[0].week == w {
        assert r[1..] == groups[1..];
      } else if w < groups[0].week {
        assert r[1..] == groups;
        assert w !in Weeks(groups);
        GroupOfMissing(groups, w);
      } else {
        AddToWeekContents(groups[1..], d, w, v);
        assert r[1..] == AddToWeek(groups[1..], d, w);
      }
    }
  }

  /** `weeks` as written: every visible day is pushed into the list of its week
      number, and the lists are then ordered by ascending week number. */
  function GroupByWeek(days: seq<Day>, weekOf: Day -> int): (groups: seq<WeekGroup>)
    ensures WeeksAscending(groups)
    ensures forall v :: v in Weeks(groups) <==> exists d :: d in days && weekOf(d) == v
    ensures forall v :: GroupOf(groups, v) == InWeek(days, weekOf, v)
    ensures TotalSize(groups) == |days|
  {
    if |days| == 0 then []
    else
      var init, last := days[..|days| - 1], days[|days| - 1];
      assert days == init + [last];
      var before := GroupByWeek(init, weekOf);
      forall v
        ensures GroupOf(AddToWeek(before, last, weekOf(last)), v) == InWeek(days, weekOf, v)
      {
        AddToWeekContents(before, last, weekOf(last), v);
      }
      AddToWeekContents(before, last, weekOf(last), 0);
      AddToWeek(before, last, weekOf(last))
  }

  /** With ascending weeks, the header of a group's own week is that group. */
  lemma {:induction false} GroupOfAt(groups: seq<WeekGroup>, i: nat)
    requires WeeksAscending(groups) && i < |groups|
    ensures GroupOf(groups, groups[i].week) == groups[i].days
  {
    if i > 0 {
      assert groups[1..][i - 1] == groups[i];
      GroupOfAt(groups[1..], i - 1);
    }
  }

  /** The grouping partitions the days: a day is under a header exactly when the
      header is its week, every day's week has a header, and no header is empty. */
  lemma DayInExactlyOneGroup(days: seq<Day>, weekOf: Day -> int, i: nat, d: Day)
    requires i < |GroupByWeek(days, weekOf)|
    ensures d in GroupByWeek(days, weekOf)[i].days <==> d in days && GroupByWeek(days, weekOf)[i].week == weekOf(d)
    ensures d in days ==> weekOf(d) in Weeks(GroupByWeek(days, weekOf))
    ensures |GroupByWeek(days, weekOf)[i].days| > 0
  {
    var groups := GroupByWeek(days, weekOf);
    GroupOfAt(groups, i);
    assert groups[i].week in Weeks(groups);
    var e :| e in days && weekOf(e) == groups[i].week;
    assert e in groups[i].days;
  }

  /** The first header is the earliest week among the days. */
  lemma FirstHeaderIsEarliestWeek(days: seq<Day>, weekOf: Day -> int, d: Day)
    requires d in days
    ensures |GroupByWeek(days, weekOf)| > 0
    ensures GroupByWeek(days, weekOf)[0].week <= weekOf(d)
  {
    var groups := GroupByWeek(days, weekOf);
    assert weekOf(d) in Weeks(groups);
    var i :| 0 <= i < |groups| && groups[i].week == weekOf(d);
  }

  /** As written, the headers are drawn in week order above columns drawn in day
      order. When some later day has an earlier week number than the first day,
      the first header is not the first column's week, and the header row,
      flattened, does not start with the first column's day. */
  lemma HeadersMisaligned(days: seq<Day>, weekOf: Day -> int, j: nat)
    requires j < |days| && weekOf(days[j]) < weekOf(days[0])
    ensures |GroupByWeek(days, weekOf)| > 0
    ensures GroupByWeek(days, weekOf)[0].week != weekOf(days[0])
    ensures |Flatten(GroupByWeek(days, weekOf))| > 0 && Flatten(GroupByWeek(days, weekOf))[0] != days[0]
  {
    var groups := GroupByWeek(days, weekOf);
    FirstHeaderIsEarliestWeek(days, weekOf, days[j]);
    DayInExactlyOneGroup(days, weekOf, 0, days[0]);
    var first := groups[0].days[0];
    DayInExactlyOneGroup(days, weekOf, 0, first);
  }

  /** The week number of a day, as the grid asks date-fns for it. */
  function DateWeek(d: Day): int {
    if d >= 0 then WeekNumber(d) else 0
  }

  // December 1, 2024 (a Sunday) is in week 49; December 29 starts the week that
  // holds January 1, 2025, so it is in week 1. The calendar arithmetic on these
  // literal dates is expensive for the verifier when it meets it inside a larger
  // proof, so each literal fact (a day number, a week start) is stated and proved
  // in a lemma of its own, and the lemmas below take the day numbers as
  // parameters pinned by `requires` instead of as literals.

  lemma ToDayDec1() ensures ToDay(Date(2024, 12, 1)) == 739220 {}
  lemma ToDayDec29() ensures ToDay(Date(2024, 12, 29)) == 739248 {}
  lemma ToDayJan2025() ensures ToDay(Date(2025, 1, 1)) == 739251 {}

  lemma WeekYearStarts()
    ensures WeekYearStart(2025) == 739248 && WeekYearStart(2024) == 738884
  {
    ToDayJan2025();
  }

  /** December 2024 as the grid shows it: the visible days are December 1..31, the
      first column is December 1 (week 49), December 29 (week 1) is a later column,
      and so the first header is week 1's and the header row does not start with
      the first column's day. */
  lemma DecemberHeadersMisaligned(ref: nat)
    requires ref == ToDay(Date(2024, 12, 1))
    ensures |MonthOf(ref)| == 31
    ensures DateWeek(MonthOf(ref)[0]) == 49 && DateWeek(MonthOf(ref)[28]) == 1
    ensures |GroupByWeek(MonthOf(ref), DateWeek)| > 0
    ensures GroupByWeek(MonthOf(ref), DateWeek)[0].week != 49
    ensures |Flatten(GroupByWeek(MonthOf(ref), DateWeek))| > 0
    ensures Flatten(GroupByWeek(MonthOf(ref), DateWeek))[0] != MonthOf(ref)[0]
  {
    var y, m := 2024, 12;
    DecemberLength(y, m);
    MonthFromFirst(y, m);
    DecemberListWeeks(MonthOf(ref));
    HeadersMisaligned(MonthOf(ref), DateWeek, 28);
  }

  /** December has 31 days in every year (taking y and m as parameters keeps the
      month table from being evaluated on the literal year). */
  lemma DecemberLength(y: int, m: int)
    requires m == 12
    ensures DaysInMonth(y, m) == 31
  {
  }

  /** December 2024 meets HeadersMisaligned's condition: in any visible-day list
      that starts on December 1 and has December 29 at index 28, as December's own
      list has (Calendar.MonthFromFirst), the first column is in week 49 and a later
      one in week 1, so the first header is not the first column's week. */
  lemma DecemberListWeeks(days: seq<Day>)
    requires |days| > 28
    requires days[0] == ToDay(Date(2024, 12, 1)) && days[28] == days[0] + 28
    ensures DateWeek(days[0]) == 49 && DateWeek(days[28]) == 1
  {
    ToDayDec1();
    DecemberWeeks(days[0], days[28]);
  }

  /** December 1, 2024 is in week 49 and December 29 in week 1. */
  lemma DecemberWeeks(dec1: Day, dec29: Day)
    requires dec1 == 739220 && dec29 == 739248
    ensures DateWeek(dec1) == 49 && DateWeek(dec29) == 1
  {
    FirstWeekOfDecember(dec1);
    LastWeekOfDecember(dec29);
  }

  lemma FirstWeekOfDecember(d: Day)
    requires d == 739220
    ensures DateWeek(d) == 49
  {
    var dec1 := Date(2024, 12, 1);
    ToDayDec1();
    WeekYearStarts();
    WeekNumberOfDate(dec1);
  }

  lemma LastWeekOfDecember(d: Day)
    requires d == 739248
    ensures DateWeek(d) == 1
  {
    var dec29 := Date(2024, 12, 29);
    ToDayDec29();
    WeekYearStarts();
    WeekNumberOfDate(dec29);
  }

  /** groups are the week runs of days: read left to right they give days back,
      no run is empty, each holds only days of its own week, and neighbouring runs
      have different weeks (so every run is maximal). */
  predicate WeekRuns(groups: seq<WeekGroup>, days: seq<Day>, weekOf: Day -> int) {
    && Flatten(groups) == days
    && (forall i :: 0 <= i < |groups| ==> |groups[i].days| > 0)
    && (forall i, d :: 0 <= i < |groups| && d in groups[i].days ==> weekOf(d) == groups[i].week)
    && (forall i :: 0 < i < |groups| ==> groups[i - 1].week != groups[i].week)
    && (|days| > 0 ==> |groups| > 0 && groups[0].week == weekOf(days[0]))
  }

  /** The headers the columns need: maximal runs of consecutive visible days that
      share a week number, left to right. */
  function GroupRuns(days: seq<Day>, weekOf: Day -> int): (groups: seq<WeekGroup>)
    ensures WeekRuns(groups, days, weekOf)
    ensures TotalSize(groups) == |days|
  {
    if |days| == 0 then []
    else
      var rest := GroupRuns(days[1..], weekOf);
      assert days == [days[0]] + days[1..];
      var r := if |rest| > 0 && rest[0].week == weekOf(days[0]) then JoinRun(days[0], rest, days[1..], weekOf)
        else StartRun(days[0], rest, days[1..], weekOf);
      FlattenSize(r);
      r
  }

  /** Day d opens a run of its own in front of the runs of tail. */
  function StartRun(d: Day, rest: seq<WeekGroup>, tail: seq<Day>, weekOf: Day -> int): (r: seq<WeekGroup>)
    requires WeekRuns(rest, tail, weekOf)
    requires |rest| > 0 ==> rest[0].week != weekOf(d)
    ensures WeekRuns(r, [d] + tail, weekOf)
  {
    var r := [WeekGroup(weekOf(d), [d])] + rest;
    assert r[1..] == rest;
    r
  }

  /** Day d joins the first run of tail, which is of its week. */
  function JoinRun(d: Day, rest: seq<WeekGroup>, tail: seq<Day>, weekOf: Day -> int): (r: seq<WeekGroup>)
    requires WeekRuns(rest, tail, weekOf)
    requires |rest| > 0 && rest[0].week == weekOf(d)
    ensures WeekRuns(r, [d] + tail, weekOf)
  {
    var r := [WeekGroup(weekOf(d), [d] + rest[0].days)] + rest[1..];
    assert r[1..] == rest[1..];
    assert Flatten(rest) == rest[0].days + Flatten(rest[1..]);
    r
  }

  /** The week headers of the grid, one per run of days of the same week, so each
      header spans exactly the columns of its own week. */
  function WeekHeaders(visible: seq<Day>): (headers: seq<WeekGroup>)
    ensures Flatten(headers) == visible
    ensures forall i, d :: 0 <= i < |headers| && d in headers[i].days ==> DateWeek(d) == headers[i].week
    ensures WeekRuns(headers, visible, DateWeek)
  {
    GroupRuns(visible, DateWeek)
  }

  // ---------------------------------------------------------------- daily rows

  /** The summary of one visible day. */
  datatype DayTotals = DayTotals(day: Day, completed: nat, notCompleted: int, percentage: nat)

  /** `dailyTotals`: for each visible day, how many listed habits are done, how many
      are not, and the rounded share done (0 with no habits). */
  function DailyTotals(logs: Logs, habits: seq<Habit>, visible: seq<Day>): (rows: seq<DayTotals>)
    ensures |rows| == |visible|
    ensures forall i :: 0 <= i < |rows| ==> rows[i].day == visible[i]
    ensures forall i :: 0 <= i < |rows| ==> rows[i].completed == CountDone(logs, habits, visible[i])
    ensures forall i :: 0 <= i < |rows| ==>
      rows[i].notCompleted >= 0 && rows[i].completed + rows[i].notCompleted == |habits|
    ensures forall i :: 0 <= i < |rows| ==> rows[i].percentage == Percent(rows[i].completed, |habits|)
    ensures forall i :: 0 <= i < |rows| ==> rows[i].percentage <= 100
    ensures |habits| == 0 ==> forall i :: 0 <= i < |rows| ==> rows[i].percentage == 0
    ensures forall i :: 0 <= i < |rows| && |habits| > 0 ==>
      (forall k :: 0 <= k < |habits| ==> Done(logs, visible[i], habits[k].id)) ==>
      rows[i].percentage == 100
  {
    seq(|visible|, i requires 0 <= i < |visible| =>
      var done := CountDone(logs, habits, visible[i]);
      DayTotals(visible[i], done, |habits| - done, Percent(done, |habits|)))
  }

  // ---------------------------------------------------------------- progress

  /** On how many of the visible days habit h is done. */
  function DoneDays(logs: Logs, h: HabitId, visible: seq<Day>): (n: nat)
    ensures n <= |visible|
    ensures n == |visible| <==> forall i :: 0 <= i < |visible| ==> Done(logs, visible[i], h)
  {
    if |visible| == 0 then 0
    else
      var init := visible[..|visible| - 1];
      assert forall i :: 0 <= i < |init| ==> init[i] == visible[i];
      DoneDays(logs, h, init) + (if Done(logs, visible[|visible| - 1], h) then 1 else 0)
  }

  datatype Progress = Progress(totalDone: nat, totalRequired: nat, progress: nat)

  /** The metrics column of a habit: days done out of days visible, and the rounded
      share (0 when no day is visible). */
  function HabitProgress(logs: Logs, h: HabitId, visible: seq<Day>): (p: Progress)
    ensures p.totalRequired == |visible|
    ensures p.totalDone == DoneDays(logs, h, visible) && p.totalDone <= p.totalRequired
    ensures p.progress <= 100
    ensures p.totalRequired == 0 ==> p.progress == 0
    ensures p.totalRequired > 0 ==> NearestPercent(p.totalDone, p.totalRequired, p.progress)
    ensures p.totalRequired > 0 && p.totalDone == p.totalRequired ==> p.progress == 100
  {
    var done := DoneDays(logs, h, visible);
    Progress(done, |visible|, Percent(done, |visible|))
  }

  /** The sum, over the visible days, of the habits done that day. */
  function SumCompleted(logs: Logs, habits: seq<Habit>, visible: seq<Day>): nat {
    if |visible| == 0 then 0
    else SumCompleted(logs, habits, visible[..|visible| - 1]) + CountDone(logs, habits, visible[|visible| - 1])
  }

  /** The sum, over the habits, of the visible days each was done. */
  function SumDone(logs: Logs, habits: seq<Habit>, visible: seq<Day>): nat {
    if |habits| == 0 then 0 else DoneDays(logs, habits[0].id, visible) + SumDone(logs, habits[1..], visible)
  }

  /** The progress column and the daily rows count the same check marks: summed over
      the habits or over the days, the grid holds the same number of ticks. */
  lemma {:induction false} GridTotalsAgree(logs: Logs, habits: seq<Habit>, visible: seq<Day>)
    ensures SumDone(logs, habits, visible) == SumCompleted(logs, habits, visible)
    decreases |habits|
  {
    if |habits| == 0 {
      NoHabitsNoTicks(logs, visible);
    } else {
      PeelFirstHabit(logs, habits, visible);
      GridTotalsAgree(logs, habits[1..], visible);
    }
  }

  lemma {:induction false} NoHabitsNoTicks(logs: Logs, visible: seq<Day>)
    ensures SumCompleted(logs, [], visible) == 0
    decreases |visible|
  {
    if |visible| > 0 {
      NoHabitsNoTicks(logs, visible[..|visible| - 1]);
    }
  }

  /** Splitting off the first habit's row from the daily sums. */
  lemma {:induction false} PeelFirstHabit(logs: Logs, habits: seq<Habit>, visible: seq<Day>)
    requires |habits| > 0
    ensures SumCompleted(logs, habits, visible) ==
      DoneDays(logs, habits[0].id, visible) + SumCompleted(logs, habits[1..], visible)
    decreases |visible|
  {
    if |visible| > 0 {
      PeelFirstHabit(logs, habits, visible[..|visible| - 1]);
    }
  }

  // ---------------------------------------------------------------- colour band

  /** The colour of the progress bar. */
  datatype Band = Low | Mid | High

  /** Up to 30 percent is low, up to 70 mid, above that high. */
  function ProgressBand(progress: int): (b: Band)
    ensures b == Low <==> progress <= 30
    ensures b == Mid <==> 30 < progress <= 70
    ensures b == High <==> 70 < progress
  {
    if progress <= 30 then Low else if progress <= 70 then Mid else High
  }

  function BandRank(b: Band): nat {
    match b
    case Low => 0
    case Mid => 1
    case High => 2
  }

  /** More progress never shows a lower band. */
  lemma BandMonotone(p: int, q: int)
    requires p <= q
    ensures BandRank(ProgressBand(p)) <= BandRank(ProgressBand(q))
  {
  }
}

=== FILE: heatmap.dfy ===
/** The yearly heatmap: one cell per day of the year, coloured by the share of the
    listed habits done that day in five levels, laid out in week columns with
    Sunday on top. */
module Heatmap {
  import opened Calendar
  import opened LogStore

  /** The intensity level of a day with count of total habits done: 0 for nothing
      (or no habits), then 1..4 for a share up to 25%, 50%, 75% and above, each
      upper bound inclusive. The share count / total * 100 <= 25 is 4 * count <= total. */
  function Level(count: nat, total: nat): (level: nat)
    ensures level <= 4
    ensures level == 0 <==> total == 0 || count == 0
    ensures 1 <= level <= 3 ==> (level - 1) * total < 4 * count <= level * total
    ensures level == 4 ==> 3 * total < 4 * count
  {
    if total > 0 && count > 0 then
      if 4 * count <= total then 1
      else if 2 * count <= total then 2
      else if 4 * count <= 3 * total then 3
      else 4
    else 0
  }

  /** The level bands are the quarters of the share: any level meeting the band
      conditions of a positive count is the level. */
  lemma LevelUnique(count: nat, total: nat, level: nat)
    requires total > 0 && count > 0 && 1 <= level <= 4
    requires (level - 1) * total < 4 * count
    requires level < 4 ==> 4 * count <= level * total
    ensures Level(count, total) == level
  {
  }

  /** More habits done on a day never lowers its level. */
  lemma LevelMonotone(a: nat, b: nat, total: nat)
    requires a <= b
    ensures Level(a, total) <= Level(b, total)
  {
  }

  /** Two habits, one done: level 2, count 1; both done: level 4. */
  lemma LevelScenario()
    ensures Level(1, 2) == 2
    ensures Level(2, 2) == 4
    ensures Level(0, 2) == 0 && Level(3, 0) == 0
  {
  }

  /** What a heatmap cell shows. */
  datatype Cell = Cell(level: nat, count: nat)

  /** The calendar year the heatmap shows for the selected year: it is passed to
      JavaScript's `new Date(year, 0, 1)`, which reads a year from 0 to 99 as
      1900 + year (a year typed digit by digit passes through such values). */
  function HeatmapYear(year: int): (y: int)
    requires year >= 0
    ensures y >= 1
    ensures year <= 99 ==> y == 1900 + year
    ensures year > 99 ==> y == year
  {
    if year <= 99 then 1900 + year else year
  }

  /** `intensityMap`: for every day of the year shown (YearDays holds exactly the
      days whose date falls in that year), the number of listed habits done and
      the level of that count. */
  function IntensityMap(logs: Logs, habits: seq<Habit>, year: int): (cells: map<Day, Cell>)
    requires year >= 0
    ensures forall d :: d in cells <==> d in YearDays(HeatmapYear(year))
    ensures forall d :: d in cells ==> cells[d].count == CountDone(logs, habits, d)
    ensures forall d :: d in cells ==> cells[d].count <= |habits|
    ensures forall d :: d in cells ==> cells[d].level == Level(cells[d].count, |habits|)
  {
    var days := YearDays(HeatmapYear(year));
    map d | d in days :: Cell(Level(CountDone(logs, habits, d), |habits|), CountDone(logs, habits, d))
  }

  /** Entries for ids that are not listed (a deleted habit's) leave the heatmap as it was. */
  lemma IntensityIgnoresOrphans(logs: Logs, habits: seq<Habit>, year: int, e: Day, k: HabitId)
    requires year >= 0 && k !in Ids(habits)
    ensures IntensityMap(Toggle(logs, k, e), habits, year) == IntensityMap(logs, habits, year)
  {
    var before, after := IntensityMap(logs, habits, year), IntensityMap(Toggle(logs, k, e), habits, year);
    forall d | d in before
      ensures after[d] == before[d]
    {
      CountDoneIgnoresOrphans(logs, habits, d, e, k);
    }
    SameCells(after, before);
  }

  lemma SameCells(a: map<Day, Cell>, b: map<Day, Cell>)
    requires forall d :: d in a <==> d in b
    requires forall d :: d in b ==> a[d] == b[d]
    ensures a == b
  {
    forall d | d in a.Keys
      ensures d in b.Keys
    {
    }
    forall d | d in b.Keys
      ensures d in a.Keys
    {
    }
    assert a.Keys == b.Keys;
    forall d | d in a.Keys
      ensures a[d] == b[d]
    {
    }
    assert a.Items == b.Items;
  }

  // ---------------------------------------------------------------- colours

  /** The five cell colours, palest first. */
  datatype Shade = Slate100 | Emerald200 | Emerald400 | Emerald600 | Emerald800

  /** The level a shade stands for. */
  function ShadeRank(s: Shade): (r: nat)
    ensures r <= 4
  {
    match s
    case Slate100 => 0
    case Emerald200 => 1
    case Emerald400 => 2
    case Emerald600 => 3
    case Emerald800 => 4
  }

  /** `getColor`: the shade of a level; any value outside 0..4 gets the level-0 shade. */
  function GetColor(level: int): (s: Shade)
    ensures 0 <= level <= 4 ==> ShadeRank(s) == level
    ensures !(0 <= level <= 4) ==> s == Slate100
  {
    match level
    case 0 => Slate100
    case 1 => Emerald200
    case 2 => Emerald400
    case 3 => Emerald600
    case 4 => Emerald800
    case _ => Slate100
  }

  /** Every shade is the colour of exactly its own level, so the five levels get
      five different shades. */
  lemma ShadeRoundTrip(s: Shade, a: int, b: int)
    ensures GetColor(ShadeRank(s)) == s
    ensures 0 <= a <= 4 && 0 <= b <= 4 && a != b ==> GetColor(a) != GetColor(b)
  {
  }

  // ---------------------------------------------------------------- layout

  /** The number of blank cells before January 1 of the year shown: its weekday,
      Sunday = 0. */
  function LeadPad(year: int): (pad: nat)
    requires year >= 0
    ensures pad <= 6
    ensures StartOfWeek(ToDay(Date(HeatmapYear(year), 1, 1))) == ToDay(Date(HeatmapYear(year), 1, 1)) - pad
  {
    Weekday(ToDay(Date(HeatmapYear(year), 1, 1)))
  }

  /** With the pad cells in front, the cells fill seven-row columns so that every
      day of the year shown lands in the row of its weekday. */
  lemma PadAlignsWeekdays(year: int, i: nat)
    requires year >= 0 && i < |YearDays(HeatmapYear(year))|
    ensures (LeadPad(year) + i) % 7 == Weekday(YearDays(HeatmapYear(year))[i])
  {
    var y := HeatmapYear(year);
    var first := ToDay(Date(y, 1, 1));
    ShiftedDay(year, y, first, i);
    WeekdayShift(first, i);
  }

  lemma ShiftedDay(year: int, y: int, first: nat, i: nat)
    requires year >= 0 && y == HeatmapYear(year)
    requires first == ToDay(Date(y, 1, 1)) && i < |YearDays(y)|
    ensures YearDays(y)[i] == first + i
    ensures LeadPad(year) == Weekday(first)
  {
  }

  /** Selecting year 50 shows 1950, whose January 1 was a Sunday: no pad cells,
      where year 50 itself would need six. */
  lemma TwoDigitYearShowsNineteenHundreds(year: int)
    requires year == 50
    ensures HeatmapYear(year) == 1950
    ensures LeadPad(year) == 0
  {
    Jan1950();
  }

  lemma Jan1950() ensures ToDay(Date(1950, 1, 1)) == 711857 {}

  /** i days after day n, the weekday has moved on by i, modulo 7. */
  lemma WeekdayShift(n: int, i: nat)
    ensures (Weekday(n) + i) % 7 == Weekday(n + i)
  {
    var q := (n + 1) / 7;
    assert n + 1 == 7 * q + Weekday(n);
    assert n + i + 1 == 7 * q + (Weekday(n) + i);
  }
}

=== FILE: logstore.dfy ===
/** The persisted record of the tracker: the habit list, the sparse completion
    log (day -> habit id -> done) and the sparse mood log (day -> label), with
    the four mutations the user can issue: toggle a completion, set a mood,
    add a habit and delete a habit. Absence in either log means "no data". */
module LogStore {

  type HabitId = int
  type Day = int

  datatype Color = PastelRed | PastelBlue | PastelGreen | PastelPurple | PastelYellow

  datatype Habit = Habit(id: HabitId, name: string, color: Color)

  /** Completion entries of one day, keyed by habit id. */
  type DayLog = map<HabitId, bool>
  type Logs = map<Day, DayLog>
  /** Mood labels by day; the store keeps whatever label it is given. */
  type Moods = map<Day, string>

  /** Whether habit h is marked done on day d; a missing day or entry reads as false. */
  predicate Done(logs: Logs, d: Day, h: HabitId) {
    d in logs && h in logs[d] && logs[d][h]
  }

  function Ids(habits: seq<Habit>): set<HabitId> {
    set i | 0 <= i < |habits| :: habits[i].id
  }

  predicate UniqueIds(habits: seq<Habit>) {
    forall i, j :: 0 <= i < j < |habits| ==> habits[i].id != habits[j].id
  }

  /** No day carries a true entry for an id outside the habit list. Deleting a
      habit leaves its entries behind, which breaks this. */
  ghost predicate NoOrphans(logs: Logs, habits: seq<Habit>) {
    forall d, h :: Done(logs, d, h) ==> h in Ids(habits)
  }

  // ---------------------------------------------------------------- toggle

  /** Flip the completion of habit h on day d, creating the day's map and the
      entry on first use (an absent entry becomes true). */
  function Toggle(logs: Logs, h: HabitId, d: Day): (r: Logs)
    ensures Done(r, d, h) <==> !Done(logs, d, h)
    ensures r.Keys == logs.Keys + {d}
    ensures d in logs ==> r[d].Keys == logs[d].Keys + {h}
    ensures d !in logs ==> r[d].Keys == {h}
    ensures forall e :: e in logs && e != d ==> r[e] == logs[e]
    ensures forall k :: d in logs && k in logs[d] && k != h ==> r[d][k] == logs[d][k]
  {
    var dayLog := if d in logs then logs[d] else map[];
    var newStatus := !(h in dayLog && dayLog[h]);
    logs[d := dayLog[h := newStatus]]
  }

  /** Toggling touches exactly one (day, habit) lookup. */
  lemma ToggleFrame(logs: Logs, h: HabitId, d: Day, e: Day, k: HabitId)
    ensures Done(Toggle(logs, h, d), e, k) <==> (if e == d && k == h then !Done(logs, e, k) else Done(logs, e, k))
  {
  }

  /** Two toggles restore every lookup, and restore the map itself when the entry
      already existed. */
  lemma ToggleTwice(logs: Logs, h: HabitId, d: Day)
    ensures forall e, k :: Done(Toggle(Toggle(logs, h, d), h, d), e, k) <==> Done(logs, e, k)
    ensures d in logs && h in logs[d] ==> Toggle(Toggle(logs, h, d), h, d) == logs
  {
    var r := Toggle(Toggle(logs, h, d), h, d);
    if d in logs && h in logs[d] {
      assert r[d] == logs[d];
    }
  }

  // ---------------------------------------------------------------- moods

  /** Record a mood label for day d, overwriting any earlier one. */
  function SetMood(moods: Moods, d: Day, mood: string): (r: Moods)
    ensures d in r && r[d] == mood
    ensures forall e :: e != d ==> (e in r <==> e in moods)
    ensures forall e :: e != d && e in moods ==> r[e] == moods[e]
  {
    moods[d := mood]
  }

  /** The last write wins. */
  lemma SetMoodLastWins(moods: Moods, d: Day, first: string, second: string)
    ensures SetMood(SetMood(moods, d, first), d, second) == SetMood(moods, d, second)
  {
  }

  // ---------------------------------------------------------------- add

  /** JavaScript's WhiteSpace and LineTerminator characters, which `trim` removes. */
  predicate IsJsSpace(c: char) {
    || c == '\t' || c == '\n' || c == '\U{B}' || c == '\U{C}' || c == '\r' || c == ' '
    || c == '\U{A0}' || c == '\U{1680}' || ('\U{2000}' <= c <= '\U{200A}')
    || c == '\U{2028}' || c == '\U{2029}' || c == '\U{202F}' || c == '\U{205F}'
    || c == '\U{3000}' || c == '\U{FEFF}'
  }

  function TrimStart(s: string): (r: string)
    ensures |r| <= |s| && r == s[|s| - |r|..]
    ensures |r| > 0 ==> !IsJsSpace(r[0])
    ensures forall i :: 0 <= i < |s| - |r| ==> IsJsSpace(s[i])
  {
    if |s| > 0 && IsJsSpace(s[0]) then TrimStart(s[1..]) else s
  }

  function TrimEnd(s: string): (r: string)
    ensures |r| <= |s| && r == s[..|r|]
    ensures |r| > 0 ==> !IsJsSpace(r[|r| - 1])
    ensures forall i :: |r| <= i < |s| ==> IsJsSpace(s[i])
  {
    if |s| > 0 && IsJsSpace(s[|s| - 1]) then TrimEnd(s[..|s| - 1]) else s
  }

  /** String.prototype.trim: drop leading and trailing white space. */
  function Trim(s: string): (r: string)
    ensures |r| > 0 ==> !IsJsSpace(r[0]) && !IsJsSpace(r[|r| - 1])
  {
    TrimEnd(TrimStart(s))
  }

  /** A name trims to the empty string exactly when it is all white space. */
  lemma TrimEmptyIffBlank(s: string)
    ensures Trim(s) == "" <==> forall i :: 0 <= i < |s| ==> IsJsSpace(s[i])
  {
    var t := TrimStart(s);
    if Trim(s) == "" {
      assert t == "";
    } else {
      var r := Trim(s);
      assert r[0] == t[0] == s[|s| - |t|];
    }
  }

  const Palette: seq<Color> := [PastelRed, PastelBlue, PastelGreen, PastelPurple, PastelYellow]

  /** `colors[Math.floor(Math.random() * colors.length)]`, with the random number
      in [0, 1) given as the fraction num / den: colour i is picked exactly when
      the random number lies in [i / 5, (i + 1) / 5). */
  function PickColor(num: nat, den: nat): (c: Color)
    requires num < den
    ensures forall i :: 0 <= i < |Palette| ==>
      (c == Palette[i] <==> i * den <= |Palette| * num < (i + 1) * den)
  {
    var k := (num * |Palette|) / den;
    PickedSlot(num, den, k);
    Palette[k]
  }

  /** Slot k = floor(5 num / den) is the only i with i den <= 5 num < (i + 1) den. */
  lemma PickedSlot(num: nat, den: nat, k: nat)
    requires num < den && k == (num * |Palette|) / den
    ensures k < |Palette|
    ensures forall i :: 0 <= i < |Palette| ==>
      (Palette[k] == Palette[i] <==> i * den <= |Palette| * num < (i + 1) * den)
  {
    var x := |Palette| * num;
    assert k * den <= x < k * den + den;
    assert x < |Palette| * den;
    if k >= |Palette| {
      MulMono(|Palette|, k, den);
    }
    forall i | 0 <= i < |Palette|
      ensures Palette[k] == Palette[i] <==> i * den <= x < (i + 1) * den
    {
      if i < k {
        MulMono(i + 1, k, den);
      } else if i > k {
        MulMono(k + 1, i, den);
      }
    }
  }

  lemma MulMono(a: nat, b: nat, c: nat)
    requires a <= b
    ensures a * c <= b * c
  {
    assert b * c == a * c + (b - a) * c;
  }

  /** The habit list after submitting `name`: unchanged when the name is blank,
      otherwise one new habit appended, named exactly as entered. The fresh id
      (a timestamp) and the colour are supplied by the caller. */
  function AddHabit(habits: seq<Habit>, name: string, freshId: HabitId, color: Color): (r: seq<Habit>)
    ensures Trim(name) == "" ==> r == habits
    ensures Trim(name) != "" ==> |r| == |habits| + 1 && r[..|habits|] == habits
    ensures Trim(name) != "" ==> r[|habits|] == Habit(freshId, name, color)
  {
    if Trim(name) == "" then habits else habits + [Habit(freshId, name, color)]
  }

  /** Adding with a fresh id keeps the ids unique. */
  lemma AddHabitKeepsIdsUnique(habits: seq<Habit>, name: string, freshId: HabitId, color: Color)
    requires UniqueIds(habits)
    requires freshId !in Ids(habits)
    ensures UniqueIds(AddHabit(habits, name, freshId, color))
    ensures Ids(AddHabit(habits, name, freshId, color)) == Ids(habits) + (if Trim(name) == "" then {} else {freshId})
  {
    var r := AddHabit(habits, name, freshId, color);
    if Trim(name) != "" {
      forall i, j | 0 <= i < j < |r|
        ensures r[i].id != r[j].id
      {
        if j == |habits| {
          assert r[i] == habits[i];
        }
      }
      assert r[|habits|].id in Ids(r);
      forall k | k in Ids(r)
        ensures k in Ids(habits) + {freshId}
      {
        var i :| 0 <= i < |r| && r[i].id == k;
        if i < |habits| {
          assert r[i] == habits[i];
        }
      }
      forall k | k in Ids(habits)
        ensures k in Ids(r)
      {
        var i :| 0 <= i < |habits| && habits[i].id == k;
        assert r[i] == habits[i];
      }
    }
  }

  // ---------------------------------------------------------------- delete

  /** A list names at most as many ids as it has entries; repeated ids name fewer. */
  lemma {:induction false} IdsAtMostListed(habits: seq<Habit>)
    ensures |Ids(habits)| <= |habits|
    decreases |habits|
  {
    if |habits| > 0 {
      IdsAtMostListed(habits[1..]);
      IdsCons(habits);
    }
  }

  /** The ids of a non-empty list are its head's id and the ids of its tail. */
  lemma IdsCons(habits: seq<Habit>)
    requires |habits| > 0
    ensures Ids(habits) == {habits[0].id} + Ids(habits[1..])
  {
    forall k | k in Ids(habits)
      ensures k in {habits[0].id} + Ids(habits[1..])
    {
      var i :| 0 <= i < |habits| && habits[i].id == k;
      if i > 0 {
        assert habits[1..][i - 1] == habits[i];
      }
    }
    forall k | k in Ids(habits[1..])
      ensures k in Ids(habits)
    {
      var i :| 0 <= i < |habits| - 1 && habits[1..][i].id == k;
      assert habits[i + 1].id == k;
    }
  }

  /** `habits.filter(h => h.id !== id)`. The log and mood maps are not touched:
      the deleted habit's entries stay behind as orphans. */
  function DeleteHabit(habits: seq<Habit>, id: HabitId): (r: seq<Habit>)
    ensures forall h :: h in r <==> h in habits && h.id != id
    ensures |r| <= |habits|
    ensures Ids(r) == Ids(habits) - {id}
  {
    if |habits| == 0 then []
    else
      var rest := DeleteHabit(habits[1..], id);
      IdsCons(habits);
      if habits[0].id == id then rest
      else
        var r := [habits[0]] + rest;
        assert r[1..] == rest;
        IdsCons(r);
        r
  }

  /** Deleting preserves order: it distributes over concatenation. */
  lemma {:induction false} DeleteHabitDistributes(a: seq<Habit>, b: seq<Habit>, id: HabitId)
    ensures DeleteHabit(a + b, id) == DeleteHabit(a, id) + DeleteHabit(b, id)
  {
    if |a| > 0 {
      assert (a + b)[1..] == a[1..] + b;
      DeleteHabitDistributes(a[1..], b, id);
    } else {
      assert a + b == b;
    }
  }

  /** An id other than the first one's was not the head's id, so it lies in the tail. */
  lemma UniqueTail(habits: seq<Habit>)
    requires |habits| > 0 && UniqueIds(habits)
    ensures UniqueIds(habits[1..])
    ensures habits[0].id !in Ids(habits[1..])
  {
    if habits[0].id in Ids(habits[1..]) {
      var i :| 0 <= i < |habits| - 1 && habits[1..][i].id == habits[0].id;
    }
  }

  /** Deleting keeps the remaining ids unique, and deleting an id twice is the same
      as deleting it once. */
  lemma {:induction false} DeleteHabitKeepsIdsUnique(habits: seq<Habit>, id: HabitId)
    requires UniqueIds(habits)
    ensures UniqueIds(DeleteHabit(habits, id))
    ensures DeleteHabit(DeleteHabit(habits, id), id) == DeleteHabit(habits, id)
  {
    if |habits| > 0 {
      UniqueTail(habits);
      DeleteHabitKeepsIdsUnique(habits[1..], id);
      var rest := DeleteHabit(habits[1..], id);
      if habits[0].id != id {
        var r := [habits[0]] + rest;
        assert r[1..] == rest;
        assert habits[0].id !in Ids(rest);
        forall i, j | 0 <= i < j < |r|
          ensures r[i].id != r[j].id
        {
          if i == 0 {
            assert r[j] == rest[j - 1];
            assert r[j].id in Ids(rest);
          } else {
            assert r[i] == rest[i - 1] && r[j] == rest[j - 1];
          }
        }
      }
    }
  }

  // ---------------------------------------------------------------- loading

  /** What the browser storage holds under a key. */
  datatype Stored<T> = Absent | Unparsable | Parsed(value: T)

  /** The deserialised habits value: a list, or some other JSON shape. */
  datatype HabitsValue = HabitList(items: seq<Habit>) | NotAList

  const DefaultHabits: seq<Habit> := [
    Habit(1, "Morning Jog", PastelRed),
    Habit(2, "Read 30 mins", PastelBlue),
    Habit(3, "Drink Water", PastelGreen),
    Habit(4, "Meditation", PastelPurple),
    Habit(5, "Coding", PastelYellow)
  ]

  /** The sticky-state load: a missing or unparsable entry falls back to the default. */
  function Load<T>(stored: Stored<T>, default: T): (v: T)
    ensures stored.Parsed? ==> v == stored.value
    ensures !stored.Parsed? ==> v == default
  {
    match stored
    case Parsed(value) => value
    case _ => default
  }

  /** The `safeHabits` failsafe: anything that is not a list reads as no habits. */
  function SafeHabits(v: HabitsValue): (habits: seq<Habit>)
    ensures v.HabitList? ==> habits == v.items
    ensures v.NotAList? ==> habits == []
  {
    match v
    case HabitList(items) => items
    case NotAList => []
  }

  /** The habit list the tracker starts with: the seed list on a first run or after
      corruption, nothing for a stored non-list, the stored list otherwise. */
  lemma LoadedHabits(stored: Stored<HabitsValue>)
    ensures stored.Absent? || stored.Unparsable? ==>
      SafeHabits(Load(stored, HabitList(DefaultHabits))) == DefaultHabits && UniqueIds(DefaultHabits)
    ensures stored == Parsed(NotAList) ==> SafeHabits(Load(stored, HabitList(DefaultHabits))) == []
  {
  }

  // ---------------------------------------------------------------- counting

  /** `habits.reduce((acc, h) => acc + (logs[d]?.[h.id] ? 1 : 0), 0)`: how many
      listed habits are done on day d; ids outside the list are never consulted. */
  function CountDone(logs: Logs, habits: seq<Habit>, d: Day): (n: nat)
    ensures n <= |habits|
    ensures n == |habits| <==> forall i :: 0 <= i < |habits| ==> Done(logs, d, habits[i].id)
    ensures n == 0 <==> forall i :: 0 <= i < |habits| ==> !Done(logs, d, habits[i].id)
  {
    if |habits| == 0 then 0
    else
      var rest := CountDone(logs, habits[1..], d);
      assert forall i :: 1 <= i < |habits| ==> habits[i] == habits[1..][i - 1];
      (if Done(logs, d, habits[0].id) then 1 else 0) + rest
  }

  /** Entries for ids outside the habit list never change the count. */
  lemma CountDoneIgnoresOrphans(logs: Logs, habits: seq<Habit>, d: Day, e: Day, k: HabitId)
    requires k !in Ids(habits)
    ensures CountDone(Toggle(logs, k, e), habits, d) == CountDone(logs, habits, d)
  {
    if |habits| > 0 {
      assert habits[0].id in Ids(habits);
      assert Ids(habits[1..]) <= Ids(habits) by {
        forall x | x in Ids(habits[1..])
          ensures x in Ids(habits)
        {
          var i :| 0 <= i < |habits| - 1 && habits[1..][i].id == x;
          assert habits[i + 1].id == x;
        }
      }
      CountDoneIgnoresOrphans(logs, habits[1..], d, e, k);
    }
  }
}

=== FILE: ratios.dfy ===
/** Whole-number percentages as the views display them: `Math.round(part / whole * 100)`
    taken exactly (the nearest integer, a half rounded up), with the views' shared
    policy that an empty denominator shows 0. */
module Ratios {

  /** The percentage shown for part out of whole; 0 when whole is 0. */
  function Percent(part: nat, whole: nat): (r: nat)
    ensures whole == 0 ==> r == 0
    ensures whole > 0 ==> NearestPercent(part, whole, r)
    ensures part <= whole ==> r <= 100
    ensures 0 < whole && part == whole ==> r == 100
    ensures part == 0 ==> r == 0
  {
    if whole == 0 then 0
    else
      var r := (200 * part + whole) / (2 * whole);
      RoundingBounds(part, whole, r);
      r
  }

  /** r is 100 * part / whole rounded to the nearest integer, a half going up:
      r - 1/2 <= 100 * part / whole < r + 1/2. */
  predicate NearestPercent(part: nat, whole: nat, r: nat)
    requires whole > 0
  {
    2 * whole * r <= 200 * part + whole < 2 * whole * r + 2 * whole
  }

  lemma RoundingBounds(part: nat, whole: nat, r: nat)
    requires whole > 0 && r == (200 * part + whole) / (2 * whole)
    ensures NearestPercent(part, whole, r)
    ensures part <= whole ==> r <= 100
    ensures part == whole ==> r == 100
    ensures part == 0 ==> r == 0
  {
    DivBounds(200 * part + whole, 2 * whole, r);
    MulBound(2 * whole, r, 101);
    MulBound(2 * whole, 99, r);
    MulBound(2 * whole, r, 1);
  }

  lemma DivBounds(x: nat, y: nat, q: nat)
    requires y > 0 && q == x / y
    ensures y * q <= x < y * q + y
  {
  }

  /** If a * b < a * c with a positive then b < c. */
  lemma MulBound(a: nat, b: nat, c: nat)
    requires a > 0
    ensures a * b < a * c ==> b < c
  {
    if b >= c {
      assert a * b >= a * c by {
        assert a * b == a * c + a * (b - c);
      }
    }
  }

  /** Multiplying by a positive a keeps a gap of at least a between x < y. */
  lemma MulGap(a: nat, x: nat, y: nat)
    requires x < y
    ensures a * x + a <= a * y
  {
    var k: nat := y - x - 1;
    assert y == x + 1 + k;
    assert a * y == a * x + a + a * k;
  }

  /** At most one percentage is nearest: the rounding is well defined. */
  lemma NearestUnique(part: nat, whole: nat, r1: nat, r2: nat)
    requires whole > 0
    requires NearestPercent(part, whole, r1) && NearestPercent(part, whole, r2)
    ensures r1 == r2
  {
    if r1 < r2 {
      MulGap(2 * whole, r1, r2);
    } else if r2 < r1 {
      MulGap(2 * whole, r2, r1);
    }
  }

  /** More done out of the same whole never shows a smaller percentage. */
  lemma PercentMonotone(a: nat, b: nat, whole: nat)
    requires a <= b
    ensures Percent(a, whole) <= Percent(b, whole)
  {
    if whole > 0 {
      var ra, rb := Percent(a, whole), Percent(b, whole);
      if rb < ra {
        MulGap(2 * whole, rb, ra);
      }
    }
  }
}

=== FILE: streaks.dfy ===
/** Per-habit streaks: the best streak is the longest run of consecutive completed
    days; the current streak is the run ending today, or yesterday while today is
    still open. */
module Streaks {
  import opened LogStore

  /** The days on which habit h is marked done. */
  function CompletedDays(logs: Logs, h: HabitId): (s: set<Day>)
    ensures forall d :: d in s <==> Done(logs, d, h)
  {
    set d | d in logs.Keys && Done(logs, d, h)
  }

  /** Days start .. start+len-1 are all in s. */
  ghost predicate IsRun(s: set<Day>, start: Day, len: nat) {
    forall d :: start <= d < start + len ==> d in s
  }

  /** best is the length of the longest run in s (0 when s is empty). */
  ghost predicate LongestRun(s: set<Day>, best: nat) {
    && (exists a :: IsRun(s, a, best))
    && (forall a, len: nat :: IsRun(s, a, len) ==> len <= best)
  }

  /** How many consecutive days of s end at day e. The recursion walks backwards
      and stops at the first day outside s; it terminates because fewer and fewer
      days of the finite set s lie at or before the cursor. */
  function RunEndingAt(s: set<Day>, e: Day): (n: nat)
    ensures IsRun(s, e - n + 1, n)
    ensures e - n !in s
    decreases set d | d in s && d <= e
  {
    if e in s then
      ShrinkingPast(s, e);
      1 + RunEndingAt(s, e - 1)
    else 0
  }

  /** Stepping back from a day of s leaves fewer days of s at or before the cursor. */
  lemma ShrinkingPast(s: set<Day>, e: Day)
    requires e in s
    ensures (set d | d in s && d <= e - 1) < (set d | d in s && d <= e)
  {
    var before := set d | d in s && d <= e - 1;
    var upTo := set d | d in s && d <= e;
    assert before <= upTo;
    assert e in upTo && e !in before;
  }

  /** A run of len days from a is no longer than RunEndingAt of its last day. */
  lemma RunEndingAtIsMaximal(s: set<Day>, a: Day, len: nat)
    requires IsRun(s, a, len)
    ensures len <= RunEndingAt(s, a + len - 1)
  {
  }

  /** A run is no longer than the number of days in s. */
  lemma {:induction false} RunWithinSet(s: set<Day>, a: Day, len: nat)
    requires IsRun(s, a, len)
    ensures len <= |s|
    decreases len
  {
    if len > 0 {
      var last := a + len - 1;
      var s' := s - {last};
      assert IsRun(s', a, len - 1);
      RunWithinSet(s', a, len - 1);
    }
  }

  // ---------------------------------------------------------------- current

  /** The current streak: 0 when neither today nor yesterday is done, otherwise the
      run ending today (if done) or yesterday. "today" is supplied by the caller. */
  function CurrentStreak(logs: Logs, h: HabitId, today: Day): (n: nat)
    ensures n == 0 <==> !Done(logs, today, h) && !Done(logs, today - 1, h)
    ensures n > 0 ==>
      var anchor := if Done(logs, today, h) then today else today - 1;
      && (forall d :: anchor - n < d <= anchor ==> Done(logs, d, h))
      && !Done(logs, anchor - n, h)
  {
    var s := CompletedDays(logs, h);
    if !Done(logs, today, h) && !Done(logs, today - 1, h) then 0
    else
      var anchor := if Done(logs, today, h) then today else today - 1;
      var n := RunEndingAt(s, anchor);
      assert forall d :: anchor - n < d <= anchor ==> d in s;
      n
  }

  /** The backward walk of App.jsx: a cursor starts at today (or yesterday when today
      is not done) and steps back while the visited day is done. */
  method WalkCurrentStreak(logs: Logs, h: HabitId, today: Day) returns (count: nat)
    ensures count == CurrentStreak(logs, h, today)
  {
    count := 0;
    if !Done(logs, today, h) && !Done(logs, today - 1, h) {
      return;
    }
    var s := CompletedDays(logs, h);
    var pointer := today;
    if !Done(logs, today, h) {
      pointer := pointer - 1;
    }
    ghost var anchor := pointer;
    while Done(logs, pointer, h)
      invariant pointer == anchor - count
      invariant count + RunEndingAt(s, pointer) == RunEndingAt(s, anchor)
      decreases set d | d in s && d <= pointer
    {
      ShrinkingPast(s, pointer);
      count := count + 1;
      pointer := pointer - 1;
    }
  }

  // ---------------------------------------------------------------- best

  predicate StrictlyIncreasing(xs: seq<Day>) {
    forall i, j :: 0 <= i < j < |xs| ==> xs[i] < xs[j]
  }

  /** Insert x into its place in an ascending sequence. */
  function InsertSorted(xs: seq<Day>, x: Day): (r: seq<Day>)
    requires StrictlyIncreasing(xs) && x !in xs
    ensures StrictlyIncreasing(r)
    ensures forall d :: d in r <==> d in xs || d == x
    ensures |r| == |xs| + 1
  {
    if |xs| == 0 then [x]
    else if x < xs[0] then [x] + xs
    else
      var tail := InsertSorted(xs[1..], x);
      assert forall d :: d in xs <==> d == xs[0] || d in xs[1..];
      assert forall i :: 0 <= i < |tail| ==> tail[i] in tail;
      [xs[0]] + tail
  }

  lemma HasElement(s: set<Day>)
    requires s != {}
    ensures exists x :: x in s
  {
    if forall y :: y !in s {
      assert false;
    }
  }

  /** The completed dates of habit h in ascending order: App.jsx filters the
      log's keys and sorts them chronologically. */
  method SortedCompletedDates(logs: Logs, h: HabitId) returns (dates: seq<Day>)
    ensures StrictlyIncreasing(dates)
    ensures forall d :: d in dates <==> Done(logs, d, h)
  {
    dates := [];
    var keys := logs.Keys;
    while keys != {}
      invariant keys <= logs.Keys
      invariant StrictlyIncreasing(dates)
      invariant forall d :: d in dates <==> d !in keys && Done(logs, d, h)
      decreases keys
    {
      HasElement(keys);
      var d :| d in keys;
      if Done(logs, d, h) {
        dates := InsertSorted(dates, d);
      }
      keys := keys - {d};
    }
  }

  /** The run of s ending at the j-th listed date. */
  ghost function RunAt(s: set<Day>, dates: seq<Day>, j: nat): nat
    requires j < |dates|
  {
    RunEndingAt(s, dates[j])
  }

  /** dates lists the days of s in ascending order. */
  ghost predicate Lists(s: set<Day>, dates: seq<Day>) {
    StrictlyIncreasing(dates) && forall d :: d in dates <==> d in s
  }

  /** In an ascending listing of s, the day before an element that does not follow
      its predecessor directly is not in s. */
  lemma GapBeforeNotInSet(s: set<Day>, dates: seq<Day>, i: nat)
    requires Lists(s, dates)
    requires i < |dates|
    requires i == 0 || dates[i] - dates[i - 1] != 1
    ensures dates[i] - 1 !in s
  {
    if dates[i] - 1 in s {
      var j :| 0 <= j < |dates| && dates[j] == dates[i] - 1;
    }
  }

  /** One step of the scan: the running length at dates[i] is the run ending there. */
  lemma ScanStep(s: set<Day>, dates: seq<Day>, i: nat, temp: nat)
    requires Lists(s, dates)
    requires 0 < i < |dates| && temp == RunAt(s, dates, i - 1)
    ensures dates[i] - dates[i - 1] == 1 ==> temp + 1 == RunAt(s, dates, i)
    ensures dates[i] - dates[i - 1] != 1 ==> 1 == RunAt(s, dates, i)
  {
    assert dates[i] in s;
    if dates[i] - dates[i - 1] != 1 {
      GapBeforeNotInSet(s, dates, i);
    }
  }

  /** The earliest listed date starts a run of its own. */
  lemma FirstRunIsOne(s: set<Day>, dates: seq<Day>)
    requires Lists(s, dates) && |dates| > 0
    ensures RunAt(s, dates, 0) == 1
  {
    GapBeforeNotInSet(s, dates, 0);
    assert dates[0] in s;
  }

  /** The maximum of the run lengths ending at each element of s is s's longest run. */
  lemma MaxOverEndsIsLongest(s: set<Day>, dates: seq<Day>, best: nat, arg: nat)
    requires Lists(s, dates)
    requires |dates| == 0 ==> best == 0
    requires |dates| > 0 ==> arg < |dates| && best == RunAt(s, dates, arg)
    requires forall j :: 0 <= j < |dates| ==> RunAt(s, dates, j) <= best
    ensures LongestRun(s, best)
    ensures best <= |s|
    ensures best == 0 <==> s == {}
  {
    if |dates| == 0 {
      assert IsRun(s, 0, 0);
      assert forall d :: d !in s;
      assert s == {};
    } else {
      assert IsRun(s, dates[arg] - best + 1, best);
      RunWithinSet(s, dates[arg] - best + 1, best);
      assert dates[arg] in s;
    }
    forall a, len: nat | IsRun(s, a, len)
      ensures len <= best
    {
      if len > 0 {
        RunEndingAtIsMaximal(s, a, len);
        var e := a + len - 1;
        assert e in s;
        var k :| 0 <= k < |dates| && dates[k] == e;
        assert RunAt(s, dates, k) <= best;
      }
    }
  }

  /** The scan over an ascending listing of s: the running length restarts at 1
      whenever the gap to the previous date is not exactly one day, and the
      maximum is kept. */
  method ScanRuns(s: set<Day>, dates: seq<Day>) returns (best: nat)
    requires Lists(s, dates)
    ensures LongestRun(s, best)
    ensures best <= |s|
    ensures best == 0 <==> s == {}
  {
    if |dates| == 0 {
      MaxOverEndsIsLongest(s, dates, 0, 0);
      return 0;
    }
    FirstRunIsOne(s, dates);
    var temp := 1;
    best := 1;
    ghost var arg := 0;
    for i := 1 to |dates|
      invariant temp == RunAt(s, dates, i - 1)
      invariant 0 <= arg < i && best == RunAt(s, dates, arg)
      invariant forall j :: 0 <= j < i ==> RunAt(s, dates, j) <= best
    {
      ScanStep(s, dates, i, temp);
      if dates[i] - dates[i - 1] == 1 {
        temp := temp + 1;
      } else {
        temp := 1;
      }
      if temp > best {
        best := temp;
        arg := i;
      }
    }
    MaxOverEndsIsLongest(s, dates, best, arg);
  }

  /** The best streak, computed as App.jsx does: sort the completed dates, then
      scan them once. */
  method BestStreak(logs: Logs, h: HabitId) returns (best: nat)
    ensures LongestRun(CompletedDays(logs, h), best)
    ensures best <= |CompletedDays(logs, h)|
    ensures best == 0 <==> CompletedDays(logs, h) == {}
  {
    var dates := SortedCompletedDates(logs, h);
    best := ScanRuns(CompletedDays(logs, h), dates);
  }

  /** The longest run of a set is unique. */
  lemma LongestRunUnique(s: set<Day>, b1: nat, b2: nat)
    requires LongestRun(s, b1) && LongestRun(s, b2)
    ensures b1 == b2
  {
    var a1 :| IsRun(s, a1, b1);
    var a2 :| IsRun(s, a2, b2);
  }

  /** The current streak never exceeds the best streak. */
  lemma CurrentAtMostBest(logs: Logs, h: HabitId, today: Day, best: nat)
    requires LongestRun(CompletedDays(logs, h), best)
    ensures CurrentStreak(logs, h, today) <= best
  {
    var n := CurrentStreak(logs, h, today);
    if n > 0 {
      var anchor := if Done(logs, today, h) then today else today - 1;
      assert IsRun(CompletedDays(logs, h), anchor - n + 1, n);
    }
  }

  /** A habit that was never done has streaks 0 and 0. */
  lemma NoCompletionsNoStreak(logs: Logs, h: HabitId, today: Day, best: nat)
    requires CompletedDays(logs, h) == {}
    requires LongestRun(CompletedDays(logs, h), best)
    ensures CurrentStreak(logs, h, today) == 0 && best == 0
  {
    var a :| IsRun(CompletedDays(logs, h), a, best);
    RunWithinSet(CompletedDays(logs, h), a, best);
  }

  // ---------------------------------------------------------------- scenario

  /** One log entry per day in days, marking habit h done. */
  function MarkAll(days: seq<Day>, h: HabitId): (logs: Logs)
    ensures forall d :: Done(logs, d, h) <==> d in days
  {
    map d | d in days :: map[h := true]
  }

  /** Done on days 1-5 and 8-9 of a month, today being day 9: the two runs are never
      merged, so the best streak is 5 and the current streak 2. */
  lemma TwoRunsScenario(first: Day, h: HabitId, best: nat)
    requires LongestRun(CompletedDays(MarkAll([first, first + 1, first + 2, first + 3, first + 4, first + 7, first + 8], h), h), best)
    ensures best == 5
    ensures CurrentStreak(MarkAll([first, first + 1, first + 2, first + 3, first + 4, first + 7, first + 8], h), h, first + 8) == 2
  {
    var days := [first, first + 1, first + 2, first + 3, first + 4, first + 7, first + 8];
    var logs := MarkAll(days, h);
    var s := CompletedDays(logs, h);
    assert IsRun(s, first, 5);
    var a :| IsRun(s, a, best);
    assert first + 8 in s && first + 7 in s && first + 6 !in s;
    assert RunEndingAt(s, first + 6) == 0;
    assert RunEndingAt(s, first + 7) == 1;
    ScenarioRunsShort(s, first, a, best);
  }

  /** Days first..first+4 and first+7..first+8 hold no run longer than five days. */
  lemma ScenarioRunsShort(s: set<Day>, first: Day, a: Day, len: nat)
    requires forall d :: d in s <==> first <= d <= first + 4 || d == first + 7 || d == first + 8
    requires IsRun(s, a, len)
    ensures len <= 5
  {
    if len > 5 {
      // Mention the three days the run would need; no scenario day fits all three.
      var atStart, atMiddle, atEnd := a in s, a + 3 in s, a + 5 in s;
    }
  }

  // ---------------------------------------------------------------- per habit

  datatype StreakPair = StreakPair(current: nat, best: nat)

  /** `streakData`: the streaks of every listed habit, keyed by habit id. */
  method StreakData(logs: Logs, habits: seq<Habit>, today: Day) returns (data: map<HabitId, StreakPair>)
    ensures data.Keys == Ids(habits)
    ensures forall id :: id in data ==> data[id].current == CurrentStreak(logs, id, today)
    ensures forall id :: id in data ==> LongestRun(CompletedDays(logs, id), data[id].best)
    ensures forall id :: id in data ==> data[id].current <= data[id].best
  {
    data := map[];
    for i := 0 to |habits|
      invariant data.Keys == set j | 0 <= j < i :: habits[j].id
      invariant forall id :: id in data ==> data[id].current == CurrentStreak(logs, id, today)
      invariant forall id :: id in data ==> LongestRun(CompletedDays(logs, id), data[id].best)
      invariant forall id :: id in data ==> data[id].current <= data[id].best
    {
      var id := habits[i].id;
      var current := WalkCurrentStreak(logs, id, today);
      var best := BestStreak(logs, id);
      CurrentAtMostBest(logs, id, today, best);
      data := data[id := StreakPair(current, best)];
    }
  }

  /** What the grid shows for a habit: `streakData?.[id]?.current || 0`, and the
      same for best; a habit with no entry shows 0 and 0. */
  function DisplayedStreak(data: map<HabitId, StreakPair>, id: HabitId): (shown: StreakPair)
    ensures id !in data ==> shown == StreakPair(0, 0)
    ensures id in data ==> shown == data[id]
  {
    if id in data then data[id] else StreakPair(0, 0)
  }
}
